=== FILE: README.md ===
# MEI header provenance, modelled in Dafny

This project models the two header-processing scripts of an MEI (Music
Encoding Initiative) corpus toolchain.

- `parse_provenance_prov.py` walks an MEI `<meiHead>` and writes PROV-O
  statements in Turtle. It covers the file, work and edition entities, the
  people and organisations of `respStmt`, editions, publication data, the
  sources, the encoding software as PROV activities, and the revision history.
- `parse_provenance.py` converts the same header into a JSON-like tree. Attributes
  go under `@attributes`, children are grouped by local name, and significant
  text goes under `#text`.

The parsed XML is an immutable `Element` tree with tag, attributes, optional
text, optional tail and children (`XmlTree`). Each `_process_*` step is a pure
function. It takes the element, the entity URIs and a `Registry`, which holds
the two tables `agents` and `activities` that the Python code mutates. It
returns the lines it appends and the updated registry (`Emitted`).

Output lines are values of a `Line` datatype. A raw line, a statement
`<s> p o .` and a continuation `    p o ;` each render to exactly the text of the
corresponding f-string. `GenerateProvTtl` joins the rendered lines with
newlines.

Modules, in dependency order:

| file | module | content |
|---|---|---|
| optional.dfy | Optional | `Option`, `Result` |
| text.dfy | Text | ASCII `isspace`, `\w`, `lower`, `strip`, `join`, `rsplit` |
| slug.dfy | Slug | `_clean_uri`, `_generate_uri` |
| decimal.dfy | Decimal | `str(n)` for positional ids, with its inverse |
| turtle_escape.dfy | TurtleEscape | `_escape_ttl_literal`, with the Turtle ECHAR decoder as its partner |
| xml_tree.dfy | XmlTree | elements, `_strip_ns`, `get`, `find`, `findall`, the `meiHead` locator |
| text_content.dfy | TextContent | `_extract_text_content` |
| grouping.dfy | Grouping | the insertion-ordered `defaultdict(list)` grouping |
| normalizer.dfy | Normalizer | `_elem_to_dict`, `parse_mei_metadata` |
| turtle_lines.dfy | TurtleLines | output lines, rendering, the prefix preamble |
| prov_mapper.dfy | ProvMapper | `generate_prov_ttl` and every `_process_*` |
| scenarios.dfy | Scenarios | a single title element run through `TitleLines` |

## Model

| member | source | states |
|---|---|---|
| XmlTree.StripNs | parse_provenance.py:22-24 | the result contains no `}` and is a suffix of the tag; when the tag has a `}` the result is exactly what follows the last one, and otherwise it is the whole tag |
| XmlTree.StripNsIdempotent | parse_provenance_prov.py:31-33 | stripping the namespace twice equals stripping it once |
| XmlTree.Find | parse_provenance_prov.py:289-291 | `find` is absent exactly when no direct child has the qualified tag; when present it is the first child carrying that tag |
| XmlTree.Tagged | parse_provenance_prov.py:180 | `findall` returns only children with the tag, and every child with the tag is among them |
| XmlTree.TaggedAppend | parse_provenance_prov.py:180 | filtering a concatenation is the concatenation of the filtered parts, so the matches keep document order and multiplicity |
| XmlTree.TaggedSingle | parse_provenance_prov.py:180 | one element is kept exactly when it carries the tag |
| XmlTree.LocateHeader | parse_provenance.py:68-79 | a `meiHead` root is the header; an `mei` root yields its first `meiHead` child or the "not found" error exactly when it has none; any other root is "not MEI" |
| Normalizer.ParseMeiMetadata | parse_provenance.py:68-81 | a `meiHead` root is converted itself; an `mei` root converts its first `mei:meiHead` child, or fails with the missing-header error when there is none; any other root fails with the not-MEI error |
| Normalizer.ToValue | parse_provenance.py:27-62 | a bare string exactly when the element has no attributes, no children and non-blank stripped text; otherwise an object with `@attributes` exactly when attributes exist, `#text` exactly when the stripped text is non-empty, and groups exactly when children exist |
| Normalizer.ChildGroupKeys | parse_provenance.py:45-52 | group keys are pairwise distinct and appear in the order in which each local name first occurs among the children |
| Normalizer.ChildGroupCoverage | parse_provenance.py:45-49 | every child's local name has a group, and every group key is some child's local name |
| Normalizer.ChildGroupMembers | parse_provenance.py:47-52 | each group holds all children with its name, converted and in document order; one child is stored as that value and several as a list |
| Normalizer.TailsIgnored | parse_provenance.py:27-62 | tail text anywhere in the subtree never changes the converted value |
| Grouping.GroupPairsSpec | parse_provenance.py:45-49 | the grouping loop gives distinct keys in first-seen order, covers every name, and gives each key exactly its values in order |
| Slug.Clean | parse_provenance_prov.py:35-42 | empty input gives the empty slug; every slug character is a lower-case word character or `-`, and never whitespace |
| Slug.CleanNoop | parse_provenance_prov.py:35-42 | a string made only of lower-case ASCII letters, digits, `_` and `-` is its own slug, so word characters and hyphens are kept |
| Slug.CleanEmpty | parse_provenance_prov.py:35-42 | the slug is empty exactly when the text has no word character and no `-` |
| Slug.CleanSpaceRun | parse_provenance_prov.py:39-41 | a whitespace run of any length between two non-empty slugs becomes exactly one `_` |
| Slug.CleanTrims | parse_provenance_prov.py:39-41 | whitespace around a non-empty slug is stripped away rather than turned into `_` |
| Slug.CleanIdempotent | parse_provenance_prov.py:35-42 | cleaning a slug again leaves it unchanged |
| Slug.CleanCaseInsensitive | parse_provenance_prov.py:35-42 | inputs that agree after lower-casing give the same slug |
| Slug.GenerateUri | parse_provenance_prov.py:44-49 | an empty identifier returns the base unchanged; otherwise the base without its trailing-slash run, one `/`, then the identifier's slug |
| TurtleEscape.EscapeTtlLiteral | parse_provenance_prov.py:51-63 | empty gives empty; the result has no raw LF, CR or TAB, is a valid Turtle quoted-string body, and decodes with the ECHAR rules back to the input |
| TurtleEscape.EscapeTtlLiteralIsCharwise | parse_provenance_prov.py:57-61 | the five sequential replace passes equal escaping each character on its own, because backslash goes first |
| TurtleEscape.EscapeRoundTrip | parse_provenance_prov.py:51-63 | decoding the per-character escape gives the input back |
| TurtleEscape.EscapeTtlLiteralNoop | parse_provenance_prov.py:51-63 | text without backslash, quote, LF, CR or TAB passes through unchanged |
| TextContent.ExtractText | parse_provenance_prov.py:65-77 | the flattened text has no whitespace at either end |
| TextContent.ExtractTextEmptyIff | parse_provenance_prov.py:65-77 | the flattened text is empty exactly when the element's own text and every direct child's text and tail are absent or whitespace |
| TextContent.ExtractTextOrder | parse_provenance_prov.py:65-77 | the parts are joined in document order with one space between them: the element's own text, then the child's text, then the child's tail |
| TextContent.ExtractTextShallow | parse_provenance_prov.py:65-77 | only the own text and the direct children's text and tails matter; grandchildren, tags and attributes never reach the result |
| Decimal.ParseNatToString | parse_provenance_prov.py:337 | reading back the decimal spelling of `n` gives `n` |
| Decimal.NatToStringInjective | parse_provenance_prov.py:337 | different numbers get different spellings |
| ProvMapper.PersonEntry | parse_provenance_prov.py:206-231 | the agent is always registered under its id with URI `mei:agent/<id>`; the five-line Person block comes exactly when both `foreName` and `famName` exist: the `foaf:Person` declaration, the given and family name literals that read back as the two name texts, the creator link from the target and the role |
| ProvMapper.CorpEntry | parse_provenance_prov.py:235-255 | the organisation is always registered; exactly when its text is non-empty, four lines: the `foaf:Organization` declaration, the `foaf:name` literal reading back as the text, the contributor link from the target, and `prov:hadRole` with the `role` attribute (default `contributor`) |
| ProvMapper.Persons | parse_provenance_prov.py:205-231 | the output is each `persName`'s block in document order, whatever the tables hold, and every person ends up in `agents` |
| ProvMapper.Corps | parse_provenance_prov.py:234-255 | the output is each `corpName`'s block in document order, whatever the tables hold, and every organisation ends up in `agents` |
| ProvMapper.RespStmt | parse_provenance_prov.py:195-257 | an empty target emits and registers nothing; otherwise the output is all person blocks in document order followed by all organisation blocks, every `persName` and `corpName` id ends up in `agents`, existing agents stay, activities are untouched, every person with both name parts gets its creator link from the target, and every organisation with text its contributor link |
| ProvMapper.RespStmts | parse_provenance_prov.py:189-191 | after all `respStmt`s every one of their `persName`s is a known agent; existing agents stay and activities are untouched |
| ProvMapper.TitleLines | parse_provenance_prov.py:180-186 | at most one line per title, every line a `dcterms:title` of the work with a valid literal body; when all titles have text, the `i`-th line is the `i`-th title's, its literal reads back as that title's text and is tagged `@` plus its type (default `main`) |
| ProvMapper.TitleLinesSingle | parse_provenance_prov.py:180-186 | one title contributes exactly its own title line |
| ProvMapper.TitleLinesAppend | parse_provenance_prov.py:180-186 | the lines of a title list are the lines of its parts in order, so each title with text keeps its line in document order even when other titles are blank |
| ProvMapper.TitleStmt | parse_provenance_prov.py:175-193 | titles and `respStmt`s only add agents and never touch activities; with a work URI, every `persName` of every `respStmt` is a known agent afterwards |
| ProvMapper.EditionEntry | parse_provenance_prov.py:264-280 | an edition without text gives nothing; otherwise the `bibo:Document` declaration, the description literal reading back as the text, `dcterms:edition` with `n` (default `1`), the work-to-edition link, and a fifth creator line exactly when `resp` is `#id` with `id` already among the agents |
| ProvMapper.EditionEntryLink | parse_provenance_prov.py:264-280 | an edition links the work to the edition once when it has text and not at all otherwise |
| ProvMapper.EditionLines | parse_provenance_prov.py:264-280 | the work-to-edition link occurs once per edition with text |
| ProvMapper.EditionLinesCreators | parse_provenance_prov.py:278-280 | every edition with text whose `resp` is `#id` with `id` among the agents is linked to that agent's URI |
| ProvMapper.EditionStmt | parse_provenance_prov.py:259-282 | editions read the agent table and never change either table; one work-to-edition link per `edition` with text; every edition with text whose `resp` resolves is linked to the resolved agent |
| ProvMapper.Publisher | parse_provenance_prov.py:289-301 | exactly when the publisher's `corpName` has text: one new agent entry and three lines, the `foaf:Organization` declaration, the `foaf:name` literal reading back as the text and the `dcterms:publisher` link; nothing otherwise |
| ProvMapper.DateLine | parse_provenance_prov.py:304-311 | a non-empty `isodate` wins and is written verbatim with the date type; otherwise non-empty text gives one plain literal on the subject that reads back as the text; otherwise nothing |
| ProvMapper.IdentifierLines | parse_provenance_prov.py:321-327 | no text gives nothing; otherwise exactly two lines: the `dcterms:identifier` statement whose literal reads back as the text, then the unescaped type |
| ProvMapper.PubStmt | parse_provenance_prov.py:284-329 | adds at most one agent, never touches activities, and links the work to its publisher whenever the publisher has text |
| ProvMapper.SourceEntry | parse_provenance_prov.py:336-346 | every source opens with its `bibo:Document` declaration and the link from the work |
| ProvMapper.Sources | parse_provenance_prov.py:331-348 | the source at each position `k` is declared as `mei:source/source_<k>` |
| ProvMapper.SourceUriInjective | parse_provenance_prov.py:337-338 | two positions give the same source URI exactly when they are equal |
| ProvMapper.SourceDesc | parse_provenance_prov.py:331-348 | only adds agents, never touches activities, and declares the `k`-th source (from 1) as `mei:source/source_<k>` |
| ProvMapper.BiblStruct | parse_provenance_prov.py:350-394 | the analytic and monograph levels only add agents and never touch activities |
| ProvMapper.Analytic | parse_provenance_prov.py:355-366 | the analytic title and `respStmt` only add agents |
| ProvMapper.Monogr | parse_provenance_prov.py:369-392 | the monograph title, `respStmt` and imprint date only add agents |
| ProvMapper.FileDesc | parse_provenance_prov.py:149-173 | the four statement groups only add agents and never touch activities; every agent known after the titleStmt is still known at the end |
| ProvMapper.FileDescCrossReference | parse_provenance_prov.py:153-161 | an edition with text whose `resp` is `#` plus the id of a `persName` in a titleStmt `respStmt` gets a `dcterms:creator` link to that person's agent in the fileDesc output |
| ProvMapper.SoftwareDetails | parse_provenance_prov.py:420-437 | exactly one line per non-empty name, version, start and end, each on the software agent: the `foaf:name` literal first, reading back as the name; the version verbatim; the start and end as `xsd:dateTime` literals |
| ProvMapper.AppEntry | parse_provenance_prov.py:412-452 | agents unchanged; `encoding_<id>` registered as `mei:activity/encoding_<id>`; the output opens with the SoftwareAgent declaration, followed directly by the name, version and timestamp lines of the software, and ends with the activity block (declaration, association with the software, use of the work, generation of the file) followed only by the activity's timestamps; the two declarations and the used and generated lines each occur exactly once |
| ProvMapper.AppIdsDistinct | parse_provenance_prov.py:413 | two applications without `xml:id` share an id exactly when they are at the same position |
| ProvMapper.Applications | parse_provenance_prov.py:407-454 | agents unchanged; every application's activity is registered and its software agent declared; the table keeps the form "key maps to `mei:activity/` + key" |
| ProvMapper.AppInfo | parse_provenance_prov.py:407-454 | agents unchanged; the `i`-th application is registered as `encoding_<id>` with fallback position `i + 1` and its SoftwareAgent declared |
| ProvMapper.EncodingDesc | parse_provenance_prov.py:396-405 | without `appInfo` nothing happens; otherwise every application's SoftwareAgent is declared; agents unchanged, activities only grow and keep their canonical form |
| ProvMapper.ChangeEntry | parse_provenance_prov.py:461-464 | agents unchanged; `revision_<id>` is registered in every case |
| ProvMapper.ChangeEntryLines | parse_provenance_prov.py:466-488 | the activity declaration appears exactly when `changeDesc/p` has text; an association line appears exactly when `resp` resolves, and then it names the resolved agent's URI; the file link appears exactly once |
| ProvMapper.ChangeEntryText | parse_provenance_prov.py:466-485 | with description text the change opens with the activity declaration and a `dcterms:description` literal reading back as that text; a non-empty `isodate` gives `prov:endedAtTime` typed `xsd:date` |
| ProvMapper.ChangeIdsDistinct | parse_provenance_prov.py:462 | two changes without `n` share an id exactly when they are at the same position |
| ProvMapper.Changes | parse_provenance_prov.py:456-490 | agents unchanged; every change's revision activity is registered and linked to the file; canonical form kept |
| ProvMapper.ChangesBlocks | parse_provenance_prov.py:460-490 | the changes' output is each change's block in document order, resolved against the agent table the changes started with, whatever the activity table holds |
| ProvMapper.ChangesAssociated | parse_provenance_prov.py:476-480 | every change whose `resp` is `#id` with `id` among the agents is associated with that agent's URI |
| ProvMapper.RevisionDesc | parse_provenance_prov.py:456-490 | agents unchanged, activities only grow and keep their canonical form; the `i`-th change is registered as `revision_<id>` with fallback position `i + 1` and linked to the file |
| ProvMapper.BaseName | parse_provenance_prov.py:101 | `Path.name` is the text after the last `/` of the path without its trailing slashes, or all of it when it has no `/` |
| ProvMapper.Stem | parse_provenance_prov.py:106 | `Path.stem` is a prefix of the name; it is shorter exactly when the last dot lies strictly inside the name, and then it ends just before that dot |
| ProvMapper.FileEntities | parse_provenance_prov.py:101-108 | file, work and edition URIs built from the slugs of the name and the stem; the edition is the work slug plus `_edition`; the slugs are slug characters only |
| ProvMapper.Mapping | parse_provenance_prov.py:97-147 | the output starts with the six prefixes, a blank line and the file entity block; with none of the three sections present it is exactly that |
| ProvMapper.MappingApplications | parse_provenance_prov.py:137-140 | with `encodingDesc/appInfo`, every application's SoftwareAgent declaration reaches the document |
| ProvMapper.MappingChanges | parse_provenance_prov.py:142-145 | with `revisionDesc`, every change's link to the file reaches the document |
| ProvMapper.MappingAssociations | parse_provenance_prov.py:132-145 | every change whose `resp` resolves against the agents that fileDesc left behind is associated with that agent in the document, numbered from 1 |
| ProvMapper.FileDescRegisters | parse_provenance_prov.py:132-135 | every `persName` of a titleStmt `respStmt` is a known agent once fileDesc is done |
| ProvMapper.MappingCrossReference | parse_provenance_prov.py:132-145 | a change whose `resp` is `#` plus the id of a `persName` in a titleStmt `respStmt` is associated in the document with that person's agent |
| ProvMapper.GenerateProvTtl | parse_provenance_prov.py:117-147 | the document opens with the `prov` prefix line followed by a newline |
| Scenarios.PlainTitle | parse_provenance_prov.py:180-186 | a title with plain text and a `type` gives exactly one title line carrying the text verbatim, tagged `@<type>` |
| Scenarios.UntypedTitle | parse_provenance_prov.py:182 | a title without `type` is tagged `@main` |

## Left out

- Parsing: `ET.parse`, file reading and the command-line `main` functions of both scripts are left out. The model starts from an already parsed element tree, and `GenerateProvTtl` takes the path as a string.
- `parse_provenance_batch.py`, `parse_provenance_prov_batch.py`, `upload_to_graphdb.py` and `validate_encodings.py` are not part of this model. They drive the core over directories, upload results or validate files.
- JSON serialisation is left out. `ParseMeiMetadata` returns the typed `Value` tree that `json.dump` would print.
- Character classes are ASCII only. `\w`, `\s`, `str.isspace` and `str.lower` follow their ASCII behaviour. Other characters count as neither word characters nor whitespace, so `Clean` drops them, whereas Python's Unicode `\w` keeps accented letters. This is done because Dafny strings have no Unicode database.
- `Path(p).name` and `Path(p).stem` follow the POSIX rules on the raw string. `.` components and repeated slashes inside the path are not normalised.
- The locator is defined once (`XmlTree.LocateHeader`), although both scripts carry their own copy. The copy in parse_provenance_prov.py, lines 79-95, behaves the same and returns the element.
- `_strip_ns` is defined once for the same reason.
- ProvMapper.TitleStmt: states the registry effect; the lines are described by `TitleLines` and `RespStmt`.
- ProvMapper.PubStmt: states the registry effect and the publisher link; its other lines are described member by member (`Publisher`, `DateLine`, `IdentifierLines`).
- ProvMapper.BiblStruct: states only the registry effect; the title and date lines are not given their own lemma.
- ProvMapper.Analytic: states only the registry effect.
- ProvMapper.Monogr: states only the registry effect; its date goes through `DateLine` with `xsd:gYear`.
- ProvMapper.FileDesc: states the registry effect; of its lines, only the creator links that editions take from the titleStmt's people are stated (`FileDescCrossReference`).
- ProvMapper.ChangeEntry: its own contract states the registry effect; its lines are stated by `ChangeEntryLines`.
- ProvMapper.Mapping: states the preamble, the file entity block and the case with no section; what the sections add is stated by `MappingApplications`, `MappingChanges`, `MappingAssociations` and `MappingCrossReference` for the encoding and revision sections only, and the fileDesc part of the document is not given such a lemma.
- ProvMapper.GenerateProvTtl: states the first line of the rendered document only; the rest follows from `Mapping` and the `Render` function.

Behaviours of the code worth noting:

- Agents are overwritten when an id occurs again (last writer wins), both for people and organisations.
- A `persName` with neither `xml:id` nor both name parts is still registered, under the empty id with URI `mei:agent/`. It emits no lines.
- `role`, edition `n`, `isodate`, `version`, the start and end dates, the identifier `type` and the file path are written into literals without escaping, and the title `type` goes unescaped into the language tag after `@`. Only element text goes through `_escape_ttl_literal`. `EscapeTtlLiteral` is the only escaping the model applies.
- An `xml:id` or `n` attribute that is present but empty is used as the id, since `get` only falls back when the key is absent. For applications this gives `mei:software/`, and for changes `revision_`.

=== FILE: decimal.dfy ===
/** Python's `str(n)` for the natural numbers used as positional ids. */
module Decimal {

  predicate IsDigit(c: char) {
    '0' <= c <= '9'
  }

  function DigitChar(d: nat): (c: char)
    requires d < 10
    ensures IsDigit(c) && c as int - '0' as int == d
  {
    ('0' as int + d) as char
  }

  /** The decimal spelling of `n`, most significant digit first, no leading zero. */
  function NatToString(n: nat): (r: string)
    ensures |r| >= 1
    ensures forall i :: 0 <= i < |r| ==> IsDigit(r[i])
    ensures |r| > 1 ==> r[0] != '0'
  {
    if n < 10 then [DigitChar(n)] else NatToString(n / 10) + [DigitChar(n % 10)]
  }

  /** Reads a string of decimal digits back as a number. */
  function ParseDecimal(s: string): nat
    requires forall i :: 0 <= i < |s| ==> IsDigit(s[i])
  {
    if |s| == 0 then 0
    else
      assert IsDigit(s[|s| - 1]);
      ParseDecimal(s[..|s| - 1]) * 10 + (s[|s| - 1] as int - '0' as int)
  }

  /** Reading the spelling of `n` gives `n` back. */
  lemma {:induction false} ParseNatToString(n: nat)
    ensures ParseDecimal(NatToString(n)) == n
  {
    if n >= 10 {
      var s := NatToString(n);
      assert s[..|s| - 1] == NatToString(n / 10);
      ParseNatToString(n / 10);
    }
  }

  /** Distinct positions get distinct spellings, so positional ids never collide. */
  lemma NatToStringInjective(m: nat, n: nat)
    requires m != n
    ensures NatToString(m) != NatToString(n)
  {
    ParseNatToString(m);
    ParseNatToString(n);
  }
}

=== FILE: grouping.dfy ===
/**
 * The child-grouping loop of `_elem_to_dict` (parse_provenance.py:45-52):
 * a `defaultdict(list)` filled in document order, whose keys keep the order
 * of first insertion.
 */
module Grouping {

  /** The names of a list of (name, value) pairs. */
  function Names<V>(ps: seq<(string, V)>): (r: seq<string>)
    ensures |r| == |ps| && forall i :: 0 <= i < |ps| ==> r[i] == ps[i].0
  {
    seq(|ps|, i requires 0 <= i < |ps| => ps[i].0)
  }

  /** Position of the first occurrence of `k` in `names`, or `|names|` when it does not occur. */
  function FirstOccurrence(names: seq<string>, k: string): (r: nat)
    ensures r <= |names|
    ensures forall j :: 0 <= j < r ==> names[j] != k
    ensures r < |names| ==> names[r] == k
  {
    if |names| == 0 then 0
    else if names[0] == k then 0
    else 1 + FirstOccurrence(names[1..], k)
  }

  /** The values paired with `k`, in document order: the reference for one group. */
  function ValuesOf<V>(ps: seq<(string, V)>, k: string): seq<V> {
    if |ps| == 0 then []
    else ValuesOf(ps[..|ps| - 1], k) + (if ps[|ps| - 1].0 == k then [ps[|ps| - 1].1] else [])
  }

  /** Position of key `k` among the groups, or `|g|` when it is not a key yet. */
  function KeyIndex<W>(g: seq<(string, W)>, k: string): (r: nat)
    ensures r <= |g|
    ensures forall j :: 0 <= j < r ==> g[j].0 != k
    ensures r < |g| ==> g[r].0 == k
  {
    if |g| == 0 then 0
    else if g[0].0 == k then 0
    else 1 + KeyIndex(g[1..], k)
  }

  /** `grouped[k].append(v)`: extend an existing key's list, or add the key at the end. */
  function Append<V>(g: seq<(string, seq<V>)>, k: string, v: V): seq<(string, seq<V>)> {
    var m := KeyIndex(g, k);
    if m < |g| then g[m := (k, g[m].1 + [v])] else g + [(k, [v])]
  }

  /** The loop over all pairs, in order. */
  function GroupPairs<V>(ps: seq<(string, V)>): seq<(string, seq<V>)> {
    if |ps| == 0 then []
    else Append(GroupPairs(ps[..|ps| - 1]), ps[|ps| - 1].0, ps[|ps| - 1].1)
  }

  /** No key appears twice. */
  ghost predicate DistinctKeys<V>(g: seq<(string, seq<V>)>) {
    forall i, j :: 0 <= i < j < |g| ==> g[i].0 != g[j].0
  }

  /** Every name that occurs is a key. */
  ghost predicate CoversNames<V>(ps: seq<(string, V)>, g: seq<(string, seq<V>)>) {
    forall i :: 0 <= i < |ps| ==> KeyIndex(g, ps[i].0) < |g|
  }

  /** Every key is a name that occurs. */
  ghost predicate KeysOccur<V>(ps: seq<(string, V)>, g: seq<(string, seq<V>)>) {
    forall j :: 0 <= j < |g| ==> FirstOccurrence(Names(ps), g[j].0) < |ps|
  }

  /** Each key holds exactly its name's values, in document order. */
  ghost predicate ValuesMatch<V>(ps: seq<(string, V)>, g: seq<(string, seq<V>)>) {
    forall j :: 0 <= j < |g| ==> g[j].1 == ValuesOf(ps, g[j].0)
  }

  /** Keys are ordered by the position where each name first occurs. */
  ghost predicate FirstSeenOrder<V>(ps: seq<(string, V)>, g: seq<(string, seq<V>)>) {
    forall i, j :: 0 <= i < j < |g| ==>
      FirstOccurrence(Names(ps), g[i].0) < FirstOccurrence(Names(ps), g[j].0)
  }

  /** The grouping promises, stated against the reference definitions above. */
  ghost predicate GroupedBy<V>(ps: seq<(string, V)>, g: seq<(string, seq<V>)>) {
    DistinctKeys(g) && CoversNames(ps, g) && KeysOccur(ps, g) && ValuesMatch(ps, g) && FirstSeenOrder(ps, g)
  }

  lemma {:induction false} FirstOccurrenceSnoc(names: seq<string>, x: string, k: string)
    ensures FirstOccurrence(names + [x], k) ==
      if FirstOccurrence(names, k) < |names| then FirstOccurrence(names, k)
      else if x == k then |names| else |names| + 1
  {
    if |names| > 0 {
      assert (names + [x])[1..] == names[1..] + [x];
      FirstOccurrenceSnoc(names[1..], x, k);
    }
  }

  lemma FirstOccurrenceStep<V>(init: seq<(string, V)>, k: string, v: V, x: string)
    ensures FirstOccurrence(Names(init + [(k, v)]), x) ==
      if FirstOccurrence(Names(init), x) < |init| then FirstOccurrence(Names(init), x)
      else if k == x then |init| else |init| + 1
  {
    assert Names(init + [(k, v)]) == Names(init) + [k];
    FirstOccurrenceSnoc(Names(init), k, x);
  }

  lemma ValuesOfStep<V>(init: seq<(string, V)>, k: string, v: V, x: string)
    ensures ValuesOf(init + [(k, v)], x) == ValuesOf(init, x) + (if k == x then [v] else [])
  {
    assert (init + [(k, v)])[..|init|] == init;
  }

  lemma {:induction false} ValuesOfAbsent<V>(ps: seq<(string, V)>, k: string)
    requires forall i :: 0 <= i < |ps| ==> ps[i].0 != k
    ensures ValuesOf(ps, k) == []
  {
    if |ps| > 0 {
      ValuesOfAbsent(ps[..|ps| - 1], k);
    }
  }

  lemma CoversStep<V>(init: seq<(string, V)>, g: seq<(string, seq<V>)>, k: string, v: V)
    requires CoversNames(init, g)
    ensures CoversNames(init + [(k, v)], Append(g, k, v))
  {
    var ps := init + [(k, v)];
    var g' := Append(g, k, v);
    var m := KeyIndex(g, k);
    assert |g'| >= |g|;
    assert forall j :: 0 <= j < |g| ==> g'[j].0 == g[j].0;
    forall i | 0 <= i < |ps| ensures KeyIndex(g', ps[i].0) < |g'| {
      if i < |init| {
        assert ps[i] == init[i];
        var q := KeyIndex(g, ps[i].0);
        assert g'[q].0 == ps[i].0;
      } else if m < |g| {
        assert g'[m].0 == k;
      } else {
        assert g'[|g|].0 == k;
      }
    }
  }

  lemma DistinctStep<V>(g: seq<(string, seq<V>)>, k: string, v: V)
    requires DistinctKeys(g)
    ensures DistinctKeys(Append(g, k, v))
  {
  }

  lemma ValuesStep<V>(init: seq<(string, V)>, g: seq<(string, seq<V>)>, k: string, v: V)
    requires ValuesMatch(init, g) && DistinctKeys(g) && CoversNames(init, g)
    ensures ValuesMatch(init + [(k, v)], Append(g, k, v))
  {
    var ps := init + [(k, v)];
    var g' := Append(g, k, v);
    var m := KeyIndex(g, k);
    if m == |g| {
      forall i | 0 <= i < |init| ensures init[i].0 != k {
        assert KeyIndex(g, init[i].0) < |g|;
      }
      ValuesOfAbsent(init, k);
    }
    forall j | 0 <= j < |g'| ensures g'[j].1 == ValuesOf(ps, g'[j].0) {
      ValuesOfStep(init, k, v, g'[j].0);
      if j < |g| && j != m {
        assert g'[j] == g[j];
      }
    }
  }

  lemma OrderStep<V>(init: seq<(string, V)>, g: seq<(string, seq<V>)>, k: string, v: V)
    requires KeysOccur(init, g) && FirstSeenOrder(init, g) && CoversNames(init, g)
    ensures KeysOccur(init + [(k, v)], Append(g, k, v)) && FirstSeenOrder(init + [(k, v)], Append(g, k, v))
  {
    var ps := init + [(k, v)];
    var g' := Append(g, k, v);
    var m := KeyIndex(g, k);
    var n := |init|;
    if m == |g| {
      forall i | 0 <= i < n ensures Names(init)[i] != k {
        assert KeyIndex(g, init[i].0) < |g|;
      }
      assert FirstOccurrence(Names(init), k) == n;
    }
    forall j | 0 <= j < |g'|
      ensures FirstOccurrence(Names(ps), g'[j].0) ==
        if j < |g| then FirstOccurrence(Names(init), g[j].0) else n
    {
      FirstOccurrenceStep(init, k, v, g'[j].0);
      if j < |g| {
        assert g'[j].0 == g[j].0;
      }
    }
  }

  /** One step of the loop keeps the grouping promises. */
  lemma AppendStep<V>(init: seq<(string, V)>, g: seq<(string, seq<V>)>, k: string, v: V)
    requires GroupedBy(init, g)
    ensures GroupedBy(init + [(k, v)], Append(g, k, v))
  {
    DistinctStep(g, k, v);
    CoversStep(init, g, k, v);
    ValuesStep(init, g, k, v);
    OrderStep(init, g, k, v);
  }

  /** Every group is the document-order list of its name's values, keys in first-occurrence order. */
  lemma {:induction false} GroupPairsSpec<V>(ps: seq<(string, V)>)
    ensures GroupedBy(ps, GroupPairs(ps))
  {
    if |ps| > 0 {
      var n := |ps| - 1;
      GroupPairsSpec(ps[..n]);
      assert ps == ps[..n] + [(ps[n].0, ps[n].1)];
      AppendStep(ps[..n], GroupPairs(ps[..n]), ps[n].0, ps[n].1);
    }
  }
}

=== FILE: normalizer.dfy ===
/**
 * The tree normaliser of parse_provenance.py: `_elem_to_dict` turns an
 * element into a JSON-like value, and `parse_mei_metadata` applies it to the
 * located header.
 */
module Normalizer {
  import opened Optional
  import opened Text
  import opened XmlTree
  import opened Grouping

  /**
   * The value `_elem_to_dict` returns: a bare string, or an object with an
   * optional `@attributes` map, the child groups keyed by local name in
   * insertion order, and an optional `#text`.
   */
  datatype Value =
    | Str(s: string)
    | Obj(attributes: Option<map<string, string>>, groups: seq<(string, Member)>, text: Option<string>)

  /** A group holding one child is that child's value; a larger group is a list. */
  datatype Member = Single(value: Value) | Multiple(values: seq<Value>)

  /** `{}`: an element that is present but carries nothing. */
  const EmptyObj: Value := Obj(None, [], None)

  /** `(elem.text or "").strip()`. */
  function OwnText(e: Element): string {
    Strip(TextOr(e.text))
  }

  /** Promote singletons to objects instead of one-element lists (parse_provenance.py:50-52). */
  function Promote(g: seq<(string, seq<Value>)>): (r: seq<(string, Member)>)
    ensures |r| == |g|
    ensures forall j :: 0 <= j < |g| ==> r[j].0 == g[j].0
    ensures forall j :: 0 <= j < |g| && |g[j].1| == 1 ==> r[j].1 == Single(g[j].1[0])
    ensures forall j :: 0 <= j < |g| && |g[j].1| != 1 ==> r[j].1 == Multiple(g[j].1)
  {
    seq(|g|, j requires 0 <= j < |g| => (g[j].0, if |g[j].1| == 1 then Single(g[j].1[0]) else Multiple(g[j].1)))
  }

  /** Each direct child's local name paired with its converted value, in document order. */
  function ChildPairs(e: Element): (r: seq<(string, Value)>)
    decreases e, 0
  {
    seq(|e.children|, i requires 0 <= i < |e.children| =>
      (StripNs(e.children[i].tag), ToValue(e.children[i])))
  }

  /**
   * `_elem_to_dict` (parse_provenance.py:27-62). A bare string only for an
   * element with neither attributes nor children and non-blank text; otherwise
   * an object whose `@attributes` is present exactly when the element has
   * attributes, and whose `#text` is present exactly when the stripped text is
   * non-empty.
   */
  function ToValue(e: Element): (v: Value)
    decreases e, 1
    ensures v.Str? <==> |e.attrs| == 0 && |e.children| == 0 && OwnText(e) != ""
    ensures v.Str? ==> v.s == OwnText(e)
    ensures v.Obj? ==> (v.attributes.Some? <==> |e.attrs| != 0)
    ensures v.Obj? && v.attributes.Some? ==> v.attributes.value == e.attrs
    ensures v.Obj? ==> (v.text.Some? <==> OwnText(e) != "")
    ensures v.Obj? && v.text.Some? ==> v.text.value == OwnText(e)
    ensures v.Obj? ==> (|v.groups| == 0 <==> |e.children| == 0)
  {
    var pairs := ChildPairs(e);
    var groups := GroupPairs(pairs);
    GroupPairsSpec(pairs);
    assert |e.children| > 0 ==> KeyIndex(groups, pairs[0].0) < |groups|;
    var text := OwnText(e);
    if text != "" && |e.children| == 0 && |e.attrs| == 0 then Str(text)
    else Obj(if |e.attrs| == 0 then None else Some(e.attrs), Promote(groups), if text != "" then Some(text) else None)
  }

  /** The local names of the children, in document order. */
  function LocalNames(cs: seq<Element>): (r: seq<string>)
    ensures |r| == |cs| && forall i :: 0 <= i < |cs| ==> r[i] == StripNs(cs[i].tag)
  {
    seq(|cs|, i requires 0 <= i < |cs| => StripNs(cs[i].tag))
  }

  /** The converted children whose local name is `k`, in document order. */
  function Matching(cs: seq<Element>, k: string): seq<Value> {
    if |cs| == 0 then []
    else Matching(cs[..|cs| - 1], k) + (if StripNs(cs[|cs| - 1].tag) == k then [ToValue(cs[|cs| - 1])] else [])
  }

  /** Grouping the converted children by name collects, for `k`, exactly the children named `k`. */
  lemma {:induction false} MatchingIsValuesOf(ps: seq<(string, Value)>, cs: seq<Element>, k: string)
    requires |ps| == |cs|
    requires forall i :: 0 <= i < |cs| ==> ps[i] == (StripNs(cs[i].tag), ToValue(cs[i]))
    ensures ValuesOf(ps, k) == Matching(cs, k)
  {
    if |cs| > 0 {
      var n := |cs| - 1;
      var ps', cs' := ps[..n], cs[..n];
      forall i | 0 <= i < n ensures ps'[i] == (StripNs(cs'[i].tag), ToValue(cs'[i])) {
        assert ps'[i] == ps[i] && cs'[i] == cs[i];
      }
      MatchingIsValuesOf(ps', cs', k);
      var last := if ps[n].0 == k then [ps[n].1] else [];
      assert ValuesOf(ps, k) == ValuesOf(ps', k) + last;
      assert Matching(cs, k) == Matching(cs', k) + last;
    }
  }

  /** The groups of an element with children, as the loop builds them. */
  lemma GroupsOf(e: Element)
    requires |e.children| > 0
    ensures ToValue(e).Obj? && ToValue(e).groups == Promote(GroupPairs(ChildPairs(e)))
  {
  }

  /**
   * Group keys (parse_provenance.py:45-52): one group per distinct local name
   * of a direct child, in the order each name first occurs.
   */
  lemma ChildGroupKeys(e: Element)
    requires |e.children| > 0
    ensures ToValue(e).Obj?
    ensures var g := ToValue(e).groups;
      && (forall i, j :: 0 <= i < j < |g| ==> g[i].0 != g[j].0)
      && (forall i, j :: 0 <= i < j < |g| ==>
            FirstOccurrence(LocalNames(e.children), g[i].0) < FirstOccurrence(LocalNames(e.children), g[j].0))
  {
    var pairs := ChildPairs(e);
    var groups := GroupPairs(pairs);
    GroupsOf(e);
    NamesOfChildPairs(e);
    GroupPairsSpec(pairs);
    assert DistinctKeys(groups) && FirstSeenOrder(pairs, groups);
    assert forall j :: 0 <= j < |groups| ==> Promote(groups)[j].0 == groups[j].0;
  }

  /** Every direct child's local name has a group, and every group key is the local name of some child. */
  lemma ChildGroupCoverage(e: Element)
    requires |e.children| > 0
    ensures ToValue(e).Obj?
    ensures var g := ToValue(e).groups;
      && (forall i :: 0 <= i < |e.children| ==> KeyIndex(g, StripNs(e.children[i].tag)) < |g|)
      && (forall j :: 0 <= j < |g| ==> FirstOccurrence(LocalNames(e.children), g[j].0) < |e.children|)
  {
    var pairs := ChildPairs(e);
    var groups := GroupPairs(pairs);
    GroupsOf(e);
    var g := Promote(groups);
    NamesOfChildPairs(e);
    GroupPairsSpec(pairs);
    assert CoversNames(pairs, groups) && KeysOccur(pairs, groups);
    assert forall j :: 0 <= j < |g| ==> g[j].0 == groups[j].0;
    forall i | 0 <= i < |e.children| ensures KeyIndex(g, StripNs(e.children[i].tag)) < |g| {
      var j := KeyIndex(groups, pairs[i].0);
      assert g[j].0 == pairs[i].0;
    }
  }

  lemma NamesOfChildPairs(e: Element)
    ensures Names(ChildPairs(e)) == LocalNames(e.children)
  {
  }

  /**
   * Group members (parse_provenance.py:47-52): a name occurring once maps to
   * that child's value, a name occurring k >= 2 times to the list of all k
   * converted children in document order.
   */
  lemma ChildGroupMembers(e: Element)
    requires |e.children| > 0
    ensures ToValue(e).Obj?
    ensures var g := ToValue(e).groups;
      forall j :: 0 <= j < |g| ==>
        var vs := Matching(e.children, g[j].0);
        && |vs| >= 1
        && g[j].1 == if |vs| == 1 then Single(vs[0]) else Multiple(vs)
  {
    GroupsOf(e);
    forall j | 0 <= j < |ToValue(e).groups| ensures
      var vs := Matching(e.children, ToValue(e).groups[j].0);
      |vs| >= 1 && ToValue(e).groups[j].1 == if |vs| == 1 then Single(vs[0]) else Multiple(vs)
    {
      ChildGroupMember(e, j);
    }
  }

  /** The `j`-th group holds exactly the children carrying its name. */
  lemma ChildGroupMember(e: Element, j: nat)
    requires |e.children| > 0 && j < |GroupPairs(ChildPairs(e))|
    ensures var groups := GroupPairs(ChildPairs(e));
      var vs := Matching(e.children, groups[j].0);
      |vs| >= 1 && Promote(groups)[j].1 == if |vs| == 1 then Single(vs[0]) else Multiple(vs)
  {
    var pairs := ChildPairs(e);
    var groups := GroupPairs(pairs);
    GroupMemberValues(pairs, j);
    MatchingIsValuesOf(pairs, e.children, groups[j].0);
  }

  /** A group is never empty and holds the values of its key. */
  lemma GroupMemberValues<V>(ps: seq<(string, V)>, j: nat)
    requires j < |GroupPairs(ps)|
    ensures var g := GroupPairs(ps);
      |g[j].1| >= 1 && g[j].1 == ValuesOf(ps, g[j].0)
  {
    var g := GroupPairs(ps);
    GroupPairsSpec(ps);
    assert ValuesMatch(ps, g) && KeysOccur(ps, g);
    var f := FirstOccurrence(Names(ps), g[j].0);
    assert ps[f].0 == g[j].0;
    ValuesOfNonEmpty(ps, f, g[j].0);
  }

  lemma {:induction false} ValuesOfNonEmpty<V>(ps: seq<(string, V)>, f: nat, k: string)
    requires f < |ps| && ps[f].0 == k
    ensures |ValuesOf(ps, k)| >= 1
  {
    if f < |ps| - 1 {
      ValuesOfNonEmpty(ps[..|ps| - 1], f, k);
    }
  }

  /** `e` with the tail text of every element below it removed. */
  function WithoutTails(e: Element): (r: Element)
    ensures r.tag == e.tag && r.attrs == e.attrs && r.text == e.text && r.tail == None
    ensures |r.children| == |e.children|
  {
    Element(e.tag, e.attrs, e.text, None,
      seq(|e.children|, i requires 0 <= i < |e.children| => WithoutTails(e.children[i])))
  }

  /** Tail text, the element's own and every descendant's, never reaches the value. */
  lemma {:induction false} TailsIgnored(e: Element)
    ensures ToValue(WithoutTails(e)) == ToValue(e)
    decreases e
  {
    var w := WithoutTails(e);
    forall i | 0 <= i < |e.children| ensures ChildPairs(w)[i] == ChildPairs(e)[i] {
      TailsIgnored(e.children[i]);
      assert w.children[i] == WithoutTails(e.children[i]);
    }
    assert ChildPairs(w) == ChildPairs(e);
  }

  /**
   * `parse_mei_metadata` after parsing (parse_provenance.py:68-81): the located
   * header converted, or the locator's error.
   */
  function ParseMeiMetadata(root: Element): (r: Result<Value, HeaderError>)
    ensures StripNs(root.tag) == "meiHead" ==> r.Success? && r.value == ToValue(root)
    ensures StripNs(root.tag) != "mei" && StripNs(root.tag) != "meiHead" ==> r.Failure? && r.error == NotMei
    ensures StripNs(root.tag) == "mei" ==>
      var k := FirstTagged(root.children, MeiTag("meiHead"));
      && (k < |root.children| ==> r.Success? && r.value == ToValue(root.children[k]))
      && (k == |root.children| ==> r.Failure? && r.error == MeiHeadMissing)
  {
    match LocateHeader(root)
    case Success(head) => Success(ToValue(head))
    case Failure(err) => Failure(err)
  }
}

=== FILE: optional.dfy ===
/** Option and Result values used for Python's `None` and for raised errors. */
module Optional {

  /** A value that may be absent, as Python's `None`. */
  datatype Option<+T> = None | Some(value: T) {
    /** The value, or `default` when absent. */
    function GetOr(default: T): T {
      match this
      case Some(v) => v
      case None => default
    }
  }

  /** The outcome of an operation that raises instead of returning. */
  datatype Result<+T, +E> = Success(value: T) | Failure(error: E)
}

=== FILE: prov_mapper.dfy ===
/**
 * The PROV-O mapper of parse_provenance_prov.py: `generate_prov_ttl` and its
 * `_process_*` helpers, walking an MEI header and appending Turtle lines while
 * threading the `agents` and `activities` tables (local id -> URI).
 */
module ProvMapper {
  import opened Optional
  import opened Text
  import opened Slug
  import opened Decimal
  import opened TurtleEscape
  import opened XmlTree
  import opened TextContent
  import opened TurtleLines

  /** The entity URIs derived from the file path (parse_provenance_prov.py:101-108). */
  datatype Entities = Entities(file: string, work: string, edition: string)

  /** The `agents` and `activities` tables, created empty for each document. */
  datatype Registry = Registry(agents: map<string, string>, activities: map<string, string>)

  /** Lines appended by one step, and the tables after it. */
  datatype Emitted = Emitted(lines: seq<Line>, reg: Registry)

  /** A plain literal `"body"`, with neither a language tag nor a datatype. */
  function Plain(body: string): Term {
    Lit(body, "")
  }

  /** `t` is a literal with the given suffix whose body reads back, under the ECHAR rules, as `text`. */
  predicate Carries(t: Term, text: string, suffix: string) {
    t.Lit? && t.suffix == suffix && Unescape(t.body) == Some(text)
  }

  /** `resp and resp.startswith("#") and resp[1:] in agents`. */
  predicate Resolves(resp: string, agents: map<string, string>) {
    |resp| > 0 && resp[0] == '#' && resp[1..] in agents
  }

  /** The flattened text of an optional element, `""` when it is absent. */
  function TextOfFound(o: Option<Element>): string {
    match o
    case Some(x) => ExtractText(x)
    case None => ""
  }

  // ---------------------------------------------------------------- respStmt

  /**
   * The local id of a `persName`: its non-empty `xml:id`; otherwise, when both
   * name parts exist, `agent_<clean(fore)>_<clean(fam)>`; otherwise `""`
   * (parse_provenance_prov.py:208-215).
   */
  function PersonId(p: Element): string {
    var id := GetAttr(p, XmlId, "");
    if id != "" then id
    else match (Find(p, "foreName"), Find(p, "famName"))
      case (Some(fore), Some(fam)) => "agent_" + Clean(TextOr(fore.text)) + "_" + Clean(TextOr(fam.text))
      case _ => ""
  }

  /**
   * One `persName` (parse_provenance_prov.py:206-231): the agent is registered
   * under its local id in every case (last writer wins); the Person block, the
   * creator link from the target and the role are emitted only when both
   * `foreName` and `famName` exist.
   */
  function PersonEntry(p: Element, target: string, reg: Registry): (r: Emitted)
    ensures r.reg.agents == reg.agents[PersonId(p) := "mei:agent/" + PersonId(p)]
    ensures r.reg.activities == reg.activities
    ensures var named := Find(p, "foreName").Some? && Find(p, "famName").Some?;
      && |r.lines| == (if named then 5 else 0)
      && (named ==> r.lines[0] == Triple("mei:agent/" + PersonId(p), "a", QName("foaf:Person"), ';'))
      && (named ==> (r.lines[1].More? && r.lines[1].pred == "foaf:givenName" && r.lines[1].close == ';'
                     && Carries(r.lines[1].obj, TextOr(Find(p, "foreName").value.text), "")))
      && (named ==> (r.lines[2].More? && r.lines[2].pred == "foaf:familyName" && r.lines[2].close == '.'
                     && Carries(r.lines[2].obj, TextOr(Find(p, "famName").value.text), "")))
      && (named ==> r.lines[3] == Triple(target, "dcterms:creator", Ref("mei:agent/" + PersonId(p)), '.'))
      && (named ==> r.lines[4] == Triple("mei:agent/" + PersonId(p), "prov:hadRole", Plain(GetAttr(p, "role", "contributor")), '.'))
  {
    var id := PersonId(p);
    Emitted(PersonBlock(p, target), reg.(agents := reg.agents[id := "mei:agent/" + id]))
  }

  /** The lines of one `persName`, which do not depend on the tables. */
  function PersonBlock(p: Element, target: string): seq<Line> {
    match (Find(p, "foreName"), Find(p, "famName"))
    case (Some(fore), Some(fam)) =>
      PersonLines("mei:agent/" + PersonId(p), target, TextOr(fore.text), TextOr(fam.text), GetAttr(p, "role", "contributor"))
    case _ => []
  }

  /** The blocks of every `persName`, in document order. */
  function PersonBlocks(ps: seq<Element>, target: string): seq<Line> {
    if |ps| == 0 then [] else PersonBlock(ps[0], target) + PersonBlocks(ps[1..], target)
  }

  /** The Person block of the agent `uri`, its creator link from `target` and its role. */
  function PersonLines(uri: string, target: string, fore: string, fam: string, role: string): (r: seq<Line>)
    ensures |r| == 5
    ensures r[0] == Triple(uri, "a", QName("foaf:Person"), ';')
    ensures r[1].More? && r[1].pred == "foaf:givenName" && r[1].close == ';' && Carries(r[1].obj, fore, "")
    ensures r[2].More? && r[2].pred == "foaf:familyName" && r[2].close == '.' && Carries(r[2].obj, fam, "")
    ensures r[3] == Triple(target, "dcterms:creator", Ref(uri), '.')
    ensures r[4] == Triple(uri, "prov:hadRole", Plain(role), '.')
  {
    [Triple(uri, "a", QName("foaf:Person"), ';'),
     More("foaf:givenName", Plain(EscapeTtlLiteral(fore)), ';'),
     More("foaf:familyName", Plain(EscapeTtlLiteral(fam)), '.'),
     Triple(target, "dcterms:creator", Ref(uri), '.'),
     Triple(uri, "prov:hadRole", Plain(role), '.')]
  }

  /** The local id of a `corpName`: its non-empty `xml:id`, else `org_<clean(text)>` (parse_provenance_prov.py:237-242). */
  function CorpId(c: Element): string {
    var id := GetAttr(c, XmlId, "");
    if id != "" then id else "org_" + Clean(ExtractText(c))
  }

  /**
   * One `corpName` (parse_provenance_prov.py:235-255): always registered, even
   * with empty text; the Organization block, contributor link and role only
   * when its text is non-empty.
   */
  function CorpEntry(c: Element, target: string, reg: Registry): (r: Emitted)
    ensures r.reg.agents == reg.agents[CorpId(c) := "mei:organization/" + CorpId(c)]
    ensures r.reg.activities == reg.activities
    ensures |r.lines| == (if ExtractText(c) == "" then 0 else 4)
    ensures ExtractText(c) != "" ==>
      && r.lines[0] == OrganizationDecl("mei:organization/" + CorpId(c))
      && NameLine(r.lines[1], ExtractText(c))
      && r.lines[2] == ContributorLink(target, c)
      && r.lines[3] == Triple("mei:organization/" + CorpId(c), "prov:hadRole", Plain(GetAttr(c, "role", "contributor")), '.')
  {
    var id := CorpId(c);
    Emitted(CorpBlock(c, target), reg.(agents := reg.agents[id := "mei:organization/" + id]))
  }

  /** The lines of one `corpName`, which do not depend on the tables. */
  function CorpBlock(c: Element, target: string): seq<Line> {
    var text := ExtractText(c);
    if text == "" then [] else CorpLines("mei:organization/" + CorpId(c), target, text, GetAttr(c, "role", "contributor"))
  }

  /** The blocks of every `corpName`, in document order. */
  function CorpBlocks(cs: seq<Element>, target: string): seq<Line> {
    if |cs| == 0 then [] else CorpBlock(cs[0], target) + CorpBlocks(cs[1..], target)
  }

  /** An organisation's type declaration. */
  function OrganizationDecl(uri: string): Line {
    Triple(uri, "a", QName("foaf:Organization"), ';')
  }

  /** `l` closes a declaration with the `foaf:name` literal that reads back as `name`. */
  predicate NameLine(l: Line, name: string) {
    l.More? && l.pred == "foaf:name" && l.close == '.' && Carries(l.obj, name, "")
  }

  /** The link from `target` to the organisation of `corpName` `c`. */
  function ContributorLink(target: string, c: Element): Line {
    Triple(target, "dcterms:contributor", Ref("mei:organization/" + CorpId(c)), '.')
  }

  /** The Organization block of `uri` named `name`, its contributor link from `target` and its role. */
  function CorpLines(uri: string, target: string, name: string, role: string): (r: seq<Line>)
    ensures |r| == 4
    ensures r[0] == OrganizationDecl(uri) && NameLine(r[1], name)
    ensures r[2] == Triple(target, "dcterms:contributor", Ref(uri), '.')
    ensures r[3] == Triple(uri, "prov:hadRole", Plain(role), '.')
  {
    [OrganizationDecl(uri),
     More("foaf:name", Plain(EscapeTtlLiteral(name)), '.'),
     Triple(target, "dcterms:contributor", Ref(uri), '.'),
     Triple(uri, "prov:hadRole", Plain(role), '.')]
  }

  /** Both name parts are present, so the Person block is written. */
  predicate Named(p: Element) {
    Find(p, "foreName").Some? && Find(p, "famName").Some?
  }

  /** The link from `target` to the agent of `persName` `p`. */
  function CreatorLink(target: string, p: Element): Line {
    Triple(target, "dcterms:creator", Ref("mei:agent/" + PersonId(p)), '.')
  }

  /**
   * Every `persName` in turn: the output is each person's block in document
   * order, whatever the tables hold, and every person is registered.
   */
  function Persons(ps: seq<Element>, target: string, reg: Registry): (r: Emitted)
    ensures r.lines == PersonBlocks(ps, target)
    ensures reg.agents.Keys <= r.reg.agents.Keys
    ensures r.reg.activities == reg.activities
    ensures forall x :: x in ps ==> PersonId(x) in r.reg.agents
    ensures forall x :: x in ps && Named(x) ==> CreatorLink(target, x) in r.lines
  {
    if |ps| == 0 then Emitted([], reg)
    else
      var first := PersonEntry(ps[0], target, reg);
      var rest := Persons(ps[1..], target, first.reg);
      var lines := first.lines + rest.lines;
      forall x | x in ps
        ensures PersonId(x) in rest.reg.agents
        ensures Named(x) ==> CreatorLink(target, x) in lines
      {
        if x != ps[0] {
          assert x in ps[1..];
        } else if Named(x) {
          assert lines[3] == first.lines[3];
        }
      }
      Emitted(lines, rest.reg)
  }

  /**
   * Every `corpName` in turn: the output is each organisation's block in
   * document order, whatever the tables hold, and every organisation is registered.
   */
  function Corps(cs: seq<Element>, target: string, reg: Registry): (r: Emitted)
    ensures r.lines == CorpBlocks(cs, target)
    ensures reg.agents.Keys <= r.reg.agents.Keys
    ensures r.reg.activities == reg.activities
    ensures forall x :: x in cs ==> CorpId(x) in r.reg.agents
    ensures forall x :: x in cs && ExtractText(x) != "" ==> ContributorLink(target, x) in r.lines
  {
    if |cs| == 0 then Emitted([], reg)
    else
      var first := CorpEntry(cs[0], target, reg);
      var rest := Corps(cs[1..], target, first.reg);
      var lines := first.lines + rest.lines;
      forall x | x in cs
        ensures CorpId(x) in rest.reg.agents
        ensures ExtractText(x) != "" ==> ContributorLink(target, x) in lines
      {
        if x != cs[0] {
          assert x in cs[1..];
        } else if ExtractText(x) != "" {
          assert lines[2] == first.lines[2];
        }
      }
      Emitted(lines, rest.reg)
  }

  /**
   * `_process_respstmt` (parse_provenance_prov.py:195-257): every `persName`,
   * then every `corpName`, linked to `target` (the work, or the source being
   * described). Every entry registers its local id; an empty target yields
   * nothing and registers nothing.
   */
  function RespStmt(rs: Element, target: string, reg: Registry): (r: Emitted)
    ensures reg.agents.Keys <= r.reg.agents.Keys
    ensures r.reg.activities == reg.activities
    ensures target == "" ==> r == Emitted([], reg)
    ensures target != "" ==> r.lines == PersonBlocks(FindAll(rs, "persName"), target) + CorpBlocks(FindAll(rs, "corpName"), target)
    ensures target != "" ==> forall p :: p in FindAll(rs, "persName") ==> PersonId(p) in r.reg.agents
    ensures target != "" ==> forall c :: c in FindAll(rs, "corpName") ==> CorpId(c) in r.reg.agents
    ensures target != "" ==> forall p :: p in FindAll(rs, "persName") && Named(p) ==> CreatorLink(target, p) in r.lines
    ensures target != "" ==>
      forall c :: c in FindAll(rs, "corpName") && ExtractText(c) != "" ==> ContributorLink(target, c) in r.lines
  {
    if target == "" then Emitted([], reg)
    else
      var persons := Persons(FindAll(rs, "persName"), target, reg);
      var corps := Corps(FindAll(rs, "corpName"), target, persons.reg);
      Emitted(persons.lines + corps.lines, corps.reg)
  }

  // --------------------------------------------------------------- titleStmt

  /** A title literal on the work, tagged with the title's type, when its text is non-empty. */
  function TitleLine(work: string, text: string, titleType: string): (r: seq<Line>)
    ensures |r| == (if text == "" then 0 else 1)
    ensures forall l :: l in r ==> TitleShape(l, work)
    ensures text != "" ==> r[0].Triple? && Carries(r[0].obj, text, "@" + titleType)
  {
    When(text != "", Triple(work, "dcterms:title", Lit(EscapeTtlLiteral(text), "@" + titleType), '.'))
  }

  /** A `dcterms:title` line on `work` whose literal is a well-formed Turtle string body. */
  predicate TitleShape(l: Line, work: string) {
    l.Triple? && l.subject == work && l.pred == "dcterms:title" && l.obj.Lit? && ValidQuoteBody(l.obj.body)
  }

  /** The title type assumed when a `title` has no `type` attribute. */
  const DefaultTitleType: string := "main"

  /** Every title has non-empty flattened text. */
  predicate AllTitled(titles: seq<Element>) {
    forall t :: t in titles ==> ExtractText(t) != ""
  }

  /** `l` is the title line of `t` on `work`: its literal reads back as the title's text, tagged with its type. */
  predicate TitleLineOf(l: Line, work: string, t: Element) {
    TitleShape(l, work) && Carries(l.obj, ExtractText(t), "@" + GetAttr(t, "type", DefaultTitleType))
  }

  /**
   * Every `title` (parse_provenance_prov.py:180-186): one line per title with
   * text, type defaulting to `main`; when all titles have text, the `i`-th line
   * is the `i`-th title's.
   */
  function TitleLines(titles: seq<Element>, work: string): (r: seq<Line>)
    ensures |r| <= |titles|
    ensures AllTitled(titles) ==> |r| == |titles|
    ensures forall l :: l in r ==> TitleShape(l, work)
    ensures AllTitled(titles) ==> forall i :: 0 <= i < |titles| ==> TitleLineOf(r[i], work, titles[i])
  {
    if |titles| == 0 then []
    else
      var t := titles[0];
      assert forall u :: u in titles[1..] ==> u in titles;
      var first := TitleLine(work, ExtractText(t), GetAttr(t, "type", DefaultTitleType));
      var rest := TitleLines(titles[1..], work);
      if AllTitled(titles) then
        assert AllTitled(titles[1..]) && t in titles;
        TitleLinesCons(titles, work, first, rest);
        first + rest
      else first + rest
  }

  /** The first title's line followed by the rest's lines pairs every title with its own line. */
  lemma TitleLinesCons(titles: seq<Element>, work: string, first: seq<Line>, rest: seq<Line>)
    requires |titles| > 0 && |first| == 1 && TitleLineOf(first[0], work, titles[0])
    requires |rest| == |titles| - 1
    requires forall i :: 0 <= i < |rest| ==> TitleLineOf(rest[i], work, titles[1..][i])
    ensures forall i :: 0 <= i < |titles| ==> TitleLineOf((first + rest)[i], work, titles[i])
  {
    var belongs := (l: Line, u: Element) => TitleLineOf(l, work, u);
    PairedCons(belongs, first, rest, titles);
  }

  /** When `first` pairs with the head of `ys` and `rest` pairs with its tail, `first + rest` pairs with `ys`. */
  lemma PairedCons<A, B>(paired: (A, B) -> bool, first: seq<A>, rest: seq<A>, ys: seq<B>)
    requires |ys| > 0 && |first| == 1 && paired(first[0], ys[0])
    requires |rest| == |ys| - 1
    requires forall i :: 0 <= i < |rest| ==> paired(rest[i], ys[1..][i])
    ensures forall i :: 0 <= i < |ys| ==> paired((first + rest)[i], ys[i])
  {
    forall i | 0 < i < |ys| ensures paired((first + rest)[i], ys[i]) {
      assert (first + rest)[i] == rest[i - 1] && ys[i] == ys[1..][i - 1];
    }
  }

  /** A single title contributes exactly its own title line. */
  lemma TitleLinesSingle(t: Element, work: string)
    ensures TitleLines([t], work) == TitleLine(work, ExtractText(t), GetAttr(t, "type", DefaultTitleType))
  {
    assert [t][1..] == [];
  }

  /** The titles' lines concatenate: each title's line, blank titles included, keeps its place in document order. */
  lemma {:induction false} TitleLinesAppend(a: seq<Element>, b: seq<Element>, work: string)
    ensures TitleLines(a + b, work) == TitleLines(a, work) + TitleLines(b, work)
  {
    if |a| == 0 {
      assert a + b == b;
    } else {
      assert (a + b)[0] == a[0] && (a + b)[1..] == a[1..] + b;
      var head := TitleLine(work, ExtractText(a[0]), GetAttr(a[0], "type", DefaultTitleType));
      var mid := TitleLines(a[1..], work);
      var tail := TitleLines(b, work);
      TitleLinesHead(a + b, work);
      TitleLinesHead(a, work);
      TitleLinesAppend(a[1..], b, work);
      Regroup(TitleLines(a + b, work), TitleLines(a[1..] + b, work), TitleLines(a, work), head, mid, tail);
    }
  }

  /** `head + rest` with `rest == mid + tail` is `(head + mid) + tail`. */
  lemma Regroup<T>(whole: seq<T>, rest: seq<T>, part: seq<T>, head: seq<T>, mid: seq<T>, tail: seq<T>)
    requires whole == head + rest && rest == mid + tail && part == head + mid
    ensures whole == part + tail
  {
  }

  /** One step of TitleLines: the head title's line, then the tail's lines. */
  lemma TitleLinesHead(titles: seq<Element>, work: string)
    requires |titles| > 0
    ensures TitleLines(titles, work)
      == TitleLine(work, ExtractText(titles[0]), GetAttr(titles[0], "type", DefaultTitleType)) + TitleLines(titles[1..], work)
  {
  }

  /** Every `respStmt` in turn; afterwards each of their `persName`s is a known agent. */
  function RespStmts(rss: seq<Element>, target: string, reg: Registry): (r: Emitted)
    ensures reg.agents.Keys <= r.reg.agents.Keys
    ensures r.reg.activities == reg.activities
    ensures target != "" ==>
      forall rs, p :: rs in rss && p in FindAll(rs, "persName") ==> PersonId(p) in r.reg.agents
  {
    if |rss| == 0 then Emitted([], reg)
    else
      var first := RespStmt(rss[0], target, reg);
      var rest := RespStmts(rss[1..], target, first.reg);
      assert target != "" ==>
        forall rs, p :: rs in rss && p in FindAll(rs, "persName") ==> PersonId(p) in rest.reg.agents by {
        if target != "" {
          forall rs, p | rs in rss && p in FindAll(rs, "persName") ensures PersonId(p) in rest.reg.agents {
            if rs != rss[0] {
              assert rs in rss[1..];
            }
          }
        }
      }
      Emitted(first.lines + rest.lines, rest.reg)
  }

  /** `_process_titlestmt` (parse_provenance_prov.py:175-193): all titles, then all `respStmt`s with the work as target. */
  function TitleStmt(ts: Element, ent: Entities, reg: Registry): (r: Emitted)
    ensures reg.agents.Keys <= r.reg.agents.Keys
    ensures r.reg.activities == reg.activities
    ensures ent.work != "" ==>
      forall rs, p :: rs in FindAll(ts, "respStmt") && p in FindAll(rs, "persName") ==> PersonId(p) in r.reg.agents
  {
    var rest := RespStmts(FindAll(ts, "respStmt"), ent.work, reg);
    Emitted(TitleLines(FindAll(ts, "title"), ent.work) + rest.lines, rest.reg)
  }

  // ------------------------------------------------------------- editionStmt

  /**
   * One `edition` (parse_provenance_prov.py:264-280): with non-empty text, the
   * edition block and the work link, followed by a creator link exactly when
   * `resp` is `#id` for an id already in `agents`; nothing otherwise.
   */
  function EditionEntry(ed: Element, ent: Entities, agents: map<string, string>): (r: seq<Line>)
    ensures ExtractText(ed) == "" ==> r == []
    ensures ExtractText(ed) != "" ==> |r| == (if Resolves(GetAttr(ed, "resp", ""), agents) then 5 else 4)
    ensures ExtractText(ed) != "" ==> r[0] == Triple(ent.edition, "a", QName("bibo:Document"), ';')
    ensures ExtractText(ed) != "" ==>
      r[1].More? && r[1].pred == "dcterms:description" && r[1].close == ';' && Carries(r[1].obj, ExtractText(ed), "")
    ensures ExtractText(ed) != "" ==> r[2] == More("dcterms:edition", Plain(GetAttr(ed, "n", "1")), '.')
    ensures ExtractText(ed) != "" ==> r[3] == Triple(ent.work, "bibo:edition", Ref(ent.edition), '.')
    ensures |r| == 5 ==>
      var resp := GetAttr(ed, "resp", "");
      Resolves(resp, agents) && r[4] == Triple(ent.edition, "dcterms:creator", Ref(agents[resp[1..]]), '.')
  {
    var text := ExtractText(ed);
    var n := GetAttr(ed, "n", "1");
    var resp := GetAttr(ed, "resp", "");
    if text == "" then []
    else
      EditionBlock(ent, text, n)
      + (if Resolves(resp, agents) then [Triple(ent.edition, "dcterms:creator", Ref(agents[resp[1..]]), '.')] else [])
  }

  /** The edition declared as a document described by `text` with edition number `n`, then linked from the work. */
  function EditionBlock(ent: Entities, text: string, n: string): (r: seq<Line>)
    ensures |r| == 4
    ensures r[0] == Triple(ent.edition, "a", QName("bibo:Document"), ';')
    ensures r[1].More? && r[1].pred == "dcterms:description" && r[1].close == ';' && Carries(r[1].obj, text, "")
    ensures r[2] == More("dcterms:edition", Plain(n), '.')
    ensures r[3] == EditionLink(ent)
  {
    [Triple(ent.edition, "a", QName("bibo:Document"), ';'),
     More("dcterms:description", Plain(EscapeTtlLiteral(text)), ';'),
     More("dcterms:edition", Plain(n), '.'),
     EditionLink(ent)]
  }

  /** The work's link to its edition. */
  function EditionLink(ent: Entities): Line {
    Triple(ent.work, "bibo:edition", Ref(ent.edition), '.')
  }

  /** How many of `eds` have non-empty flattened text. */
  function WithText(eds: seq<Element>): nat {
    if |eds| == 0 then 0 else (if ExtractText(eds[0]) != "" then 1 else 0) + WithText(eds[1..])
  }

  /** An edition entry links the work to the edition once when it has text, and not at all otherwise. */
  lemma EditionEntryLink(ed: Element, ent: Entities, agents: map<string, string>)
    ensures Count(EditionEntry(ed, ent, agents), EditionLink(ent)) == if ExtractText(ed) != "" then 1 else 0
  {
    var r := EditionEntry(ed, ent, agents);
    if ExtractText(ed) != "" {
      assert r == r[..3] + [EditionLink(ent)] + r[4..];
      assert EditionLink(ent) !in r[..3] && EditionLink(ent) !in r[4..];
      CountSingle(r[..3], EditionLink(ent), r[4..]);
    }
  }

  /** All editions' lines, in document order: the work is linked to the edition once per edition with text. */
  function EditionLines(eds: seq<Element>, ent: Entities, agents: map<string, string>): (r: seq<Line>)
    ensures Count(r, EditionLink(ent)) == WithText(eds)
  {
    if |eds| == 0 then []
    else
      var first := EditionEntry(eds[0], ent, agents);
      var rest := EditionLines(eds[1..], ent, agents);
      EditionEntryLink(eds[0], ent, agents);
      CountAppend(first, rest, EditionLink(ent));
      first + rest
  }

  /** Every edition with text whose `resp` resolves is linked to its agent. */
  lemma {:induction false} EditionLinesCreators(eds: seq<Element>, ent: Entities, agents: map<string, string>)
    ensures CreatorsListed(eds, ent, agents, EditionLines(eds, ent, agents))
  {
    if |eds| > 0 {
      EditionEntryCreator(eds[0], ent, agents);
      EditionLinesCreators(eds[1..], ent, agents);
      EditionCreatorsCons(eds, ent, agents, EditionEntry(eds[0], ent, agents), EditionLines(eds[1..], ent, agents));
    }
  }

  /** An edition with text whose `resp` resolves links the edition to that agent. */
  lemma EditionEntryCreator(ed: Element, ent: Entities, agents: map<string, string>)
    ensures ExtractText(ed) != "" && Resolves(GetAttr(ed, "resp", ""), agents) ==>
      EditionCreator(ent, agents[GetAttr(ed, "resp", "")[1..]]) in EditionEntry(ed, ent, agents)
  {
    var r := EditionEntry(ed, ent, agents);
    if ExtractText(ed) != "" && Resolves(GetAttr(ed, "resp", ""), agents) {
      assert r[4] in r;
    }
  }

  /** The creator links of the first edition and of the rest are all in their concatenation. */
  lemma EditionCreatorsCons(eds: seq<Element>, ent: Entities, agents: map<string, string>, first: seq<Line>, rest: seq<Line>)
    requires |eds| > 0
    requires ExtractText(eds[0]) != "" && Resolves(GetAttr(eds[0], "resp", ""), agents) ==>
      EditionCreator(ent, agents[GetAttr(eds[0], "resp", "")[1..]]) in first
    requires CreatorsListed(eds[1..], ent, agents, rest)
    ensures CreatorsListed(eds, ent, agents, first + rest)
  {
    forall ed | ed in eds && ExtractText(ed) != "" && Resolves(GetAttr(ed, "resp", ""), agents)
      ensures EditionCreator(ent, agents[GetAttr(ed, "resp", "")[1..]]) in first + rest
    {
      if ed != eds[0] {
        assert ed in eds[1..];
      }
    }
  }

  /**
   * Every edition of `eds` with text whose `resp` is `#` followed by a key of
   * `agents` has its link to that agent in `lines`.
   */
  predicate CreatorsListed(eds: seq<Element>, ent: Entities, agents: map<string, string>, lines: seq<Line>) {
    forall ed :: ed in eds && ExtractText(ed) != "" && Resolves(GetAttr(ed, "resp", ""), agents) ==>
      EditionCreator(ent, agents[GetAttr(ed, "resp", "")[1..]]) in lines
  }

  /** The edition's link to the agent responsible for it. */
  function EditionCreator(ent: Entities, agent: string): Line {
    Triple(ent.edition, "dcterms:creator", Ref(agent), '.')
  }

  /**
   * `_process_editionstmt` (parse_provenance_prov.py:259-282): reads `agents`,
   * never writes it; one work-to-edition link per `edition` with text.
   */
  function EditionStmt(es: Element, ent: Entities, reg: Registry): (r: Emitted)
    ensures r.reg == reg
    ensures Count(r.lines, EditionLink(ent)) == WithText(FindAll(es, "edition"))
    ensures CreatorsListed(FindAll(es, "edition"), ent, reg.agents, r.lines)
  {
    EditionLinesCreators(FindAll(es, "edition"), ent, reg.agents);
    Emitted(EditionLines(FindAll(es, "edition"), ent, reg.agents), reg)
  }

  // ----------------------------------------------------------------- pubStmt

  /** The flattened text of `publisher/corpName`, `""` when either is missing. */
  function PublisherText(ps: Element): string {
    match Find(ps, "publisher")
    case None => ""
    case Some(pub) => TextOfFound(Find(pub, "corpName"))
  }

  /** The local id of the publisher: `publisher_<clean(text)>`, never an `xml:id`. */
  function PublisherId(ps: Element): string {
    "publisher_" + Clean(PublisherText(ps))
  }

  /**
   * The publisher part of `_process_pubstmt` (parse_provenance_prov.py:289-301):
   * only a publisher `corpName` with text is declared, linked from the work and
   * registered; otherwise nothing happens.
   */
  function Publisher(ps: Element, ent: Entities, reg: Registry): (r: Emitted)
    ensures r.reg.activities == reg.activities
    ensures |r.lines| == (if PublisherText(ps) == "" then 0 else 3)
    ensures r.reg.agents == if PublisherText(ps) == "" then reg.agents
      else reg.agents[PublisherId(ps) := "mei:organization/" + PublisherId(ps)]
    ensures PublisherText(ps) != "" ==>
      && r.lines[0] == OrganizationDecl("mei:organization/" + PublisherId(ps))
      && NameLine(r.lines[1], PublisherText(ps))
      && r.lines[2] == PublisherLink(ps, ent)
  {
    var text := PublisherText(ps);
    if text == "" then Emitted([], reg)
    else
      var id := PublisherId(ps);
      var uri := "mei:organization/" + id;
      Emitted([
        OrganizationDecl(uri),
        More("foaf:name", Plain(EscapeTtlLiteral(text)), '.'),
        Triple(ent.work, "dcterms:publisher", Ref(uri), '.')],
        reg.(agents := reg.agents[id := uri]))
  }

  /** The work's link to its publisher. */
  function PublisherLink(ps: Element, ent: Entities): Line {
    Triple(ent.work, "dcterms:publisher", Ref("mei:organization/" + PublisherId(ps)), '.')
  }

  /**
   * A date statement: the `isodate` attribute, unescaped and typed, wins over
   * the element's text, which is escaped and untyped; neither gives nothing.
   */
  function DateLine(subject: string, pred: string, isodate: string, text: string, xsdType: string): (r: seq<Line>)
    ensures isodate != "" ==> r == [Triple(subject, pred, Lit(isodate, xsdType), '.')]
    ensures isodate == "" && text != "" ==>
      |r| == 1 && r[0].Triple? && r[0].subject == subject && r[0].pred == pred && r[0].close == '.'
      && Carries(r[0].obj, text, "")
    ensures isodate == "" && text == "" ==> r == []
  {
    if isodate != "" then [Triple(subject, pred, Lit(isodate, xsdType), '.')]
    else When(text != "", Triple(subject, pred, Plain(EscapeTtlLiteral(text)), '.'))
  }

  /** The date of an optional element, through DateLine. */
  function DateOf(o: Option<Element>, subject: string, pred: string, xsdType: string): seq<Line> {
    match o
    case None => []
    case Some(d) => DateLine(subject, pred, GetAttr(d, "isodate", ""), ExtractText(d), xsdType)
  }

  /** The issue date, typed `xsd:date` (parse_provenance_prov.py:304-311). */
  function PubDate(ps: Element, work: string): seq<Line> {
    DateOf(Find(ps, "date"), work, "dcterms:issued", "^^xsd:date")
  }

  /** The publication place (parse_provenance_prov.py:314-318). */
  function PubPlace(ps: Element, work: string): seq<Line> {
    var place := TextOfFound(Find(ps, "pubPlace"));
    When(place != "", Triple(work, "dcterms:spatial", Plain(EscapeTtlLiteral(place)), '.'))
  }

  /** The identifier and its type, defaulting to `PID` (parse_provenance_prov.py:321-327). */
  function PubIdentifier(ps: Element, work: string): seq<Line> {
    match Find(ps, "identifier")
    case None => []
    case Some(idElem) => IdentifierLines(work, ExtractText(idElem), GetAttr(idElem, "type", "PID"))
  }

  /** The identifier (escaped) and its type (unescaped), both or neither. */
  function IdentifierLines(work: string, text: string, idType: string): (r: seq<Line>)
    ensures text == "" ==> r == []
    ensures text != "" ==> |r| == 2 && r[1] == Triple(work, "dcterms:identifierType", Plain(idType), '.')
    ensures text != "" ==> (r[0].Triple? && r[0].subject == work && r[0].pred == "dcterms:identifier"
                            && r[0].close == '.' && Carries(r[0].obj, text, ""))
  {
    if text == "" then []
    else [Triple(work, "dcterms:identifier", Plain(EscapeTtlLiteral(text)), '.'),
          Triple(work, "dcterms:identifierType", Plain(idType), '.')]
  }

  /** `_process_pubstmt` (parse_provenance_prov.py:284-329). */
  function PubStmt(ps: Element, ent: Entities, reg: Registry): (r: Emitted)
    ensures reg.agents.Keys <= r.reg.agents.Keys && |r.reg.agents.Keys - reg.agents.Keys| <= 1
    ensures r.reg.activities == reg.activities
    ensures PublisherText(ps) != "" ==> PublisherLink(ps, ent) in r.lines
  {
    var pub := Publisher(ps, ent, reg);
    assert PublisherText(ps) != "" ==> pub.lines[2] in pub.lines;
    Emitted(pub.lines + PubDate(ps, ent.work) + PubPlace(ps, ent.work) + PubIdentifier(ps, ent.work), pub.reg)
  }

  // -------------------------------------------------------------- sourceDesc

  /** `mei:source/source_<n>`. */
  function SourceUri(n: nat): string {
    "mei:source/source_" + NatToString(n)
  }

  /** Distinct positions name distinct source documents. */
  lemma SourceUriInjective(m: nat, n: nat)
    ensures SourceUri(m) == SourceUri(n) <==> m == n
  {
    var p := "mei:source/source_";
    if SourceUri(m) == SourceUri(n) {
      assert NatToString(m) == SourceUri(m)[|p|..];
      assert NatToString(n) == SourceUri(n)[|p|..];
      if m != n { NatToStringInjective(m, n); }
    }
  }

  /** The `analytic` part of `_process_biblstruct` (parse_provenance_prov.py:355-366). */
  function Analytic(an: Element, src: string, reg: Registry): (r: Emitted)
    ensures reg.agents.Keys <= r.reg.agents.Keys
    ensures r.reg.activities == reg.activities
  {
    var title := TextOfFound(Find(an, "title"));
    var titleLines := if title != "" then [Triple(src, "dcterms:title", Plain(EscapeTtlLiteral(title)), '.')] else [];
    match Find(an, "respStmt")
    case None => Emitted(titleLines, reg)
    case Some(rs) =>
      var resp := RespStmt(rs, src, reg);
      Emitted(titleLines + resp.lines, resp.reg)
  }

  /** The `monogr` part of `_process_biblstruct` (parse_provenance_prov.py:369-392). */
  function Monogr(mo: Element, src: string, reg: Registry): (r: Emitted)
    ensures reg.agents.Keys <= r.reg.agents.Keys
    ensures r.reg.activities == reg.activities
  {
    var title := TextOfFound(Find(mo, "title"));
    var titleLines := if title != "" then [Triple(src, "dcterms:isPartOf", Plain(EscapeTtlLiteral(title)), '.')] else [];
    var resp := match Find(mo, "respStmt") case None => Emitted([], reg) case Some(rs) => RespStmt(rs, src, reg);
    var date := match Find(mo, "imprint") case None => None case Some(imp) => Find(imp, "date");
    var dateLines := DateOf(date, src, "dcterms:created", "^^xsd:gYear");
    Emitted(titleLines + resp.lines + dateLines, resp.reg)
  }

  /** `_process_biblstruct` (parse_provenance_prov.py:350-394): analytic level, then monograph level. */
  function BiblStruct(bs: Element, src: string, reg: Registry): (r: Emitted)
    ensures reg.agents.Keys <= r.reg.agents.Keys
    ensures r.reg.activities == reg.activities
  {
    var an := match Find(bs, "analytic") case None => Emitted([], reg) case Some(a) => Analytic(a, src, reg);
    var mo := match Find(bs, "monogr") case None => Emitted([], an.reg) case Some(m) => Monogr(m, src, an.reg);
    Emitted(an.lines + mo.lines, mo.reg)
  }

  /** The `n`-th source (1-based): typed as a document, linked from the work, then its `biblStruct`. */
  function SourceEntry(s: Element, n: nat, ent: Entities, reg: Registry): (r: Emitted)
    ensures reg.agents.Keys <= r.reg.agents.Keys
    ensures r.reg.activities == reg.activities
    ensures |r.lines| >= 2
    ensures r.lines[0] == Triple(SourceUri(n), "a", QName("bibo:Document"), '.')
    ensures r.lines[1] == Triple(ent.work, "dcterms:source", Ref(SourceUri(n)), '.')
  {
    var uri := SourceUri(n);
    var head := [Triple(uri, "a", QName("bibo:Document"), '.'), Triple(ent.work, "dcterms:source", Ref(uri), '.')];
    match Find(s, "biblStruct")
    case None => Emitted(head, reg)
    case Some(bs) =>
      var b := BiblStruct(bs, uri, reg);
      Emitted(head + b.lines, b.reg)
  }

  /** Sources numbered from `n` on: the `i`-th of them is `source_<n + i>`. */
  function Sources(srcs: seq<Element>, n: nat, ent: Entities, reg: Registry): (r: Emitted)
    ensures reg.agents.Keys <= r.reg.agents.Keys
    ensures r.reg.activities == reg.activities
    ensures forall k :: n <= k < n + |srcs| ==> Triple(SourceUri(k), "a", QName("bibo:Document"), '.') in r.lines
  {
    if |srcs| == 0 then Emitted([], reg)
    else
      var first := SourceEntry(srcs[0], n, ent, reg);
      var rest := Sources(srcs[1..], n + 1, ent, first.reg);
      var lines := first.lines + rest.lines;
      assert lines[0] == Triple(SourceUri(n), "a", QName("bibo:Document"), '.');
      Emitted(lines, rest.reg)
  }

  /** `_process_sourcedesc` (parse_provenance_prov.py:331-348): sources numbered from 1, each declared as a document. */
  function SourceDesc(sd: Element, ent: Entities, reg: Registry): (r: Emitted)
    ensures reg.agents.Keys <= r.reg.agents.Keys
    ensures r.reg.activities == reg.activities
    ensures forall k :: 1 <= k <= |FindAll(sd, "source")| ==> Triple(SourceUri(k), "a", QName("bibo:Document"), '.') in r.lines
  {
    Sources(FindAll(sd, "source"), 1, ent, reg)
  }

  /** `_process_filedesc` (parse_provenance_prov.py:149-173): titleStmt, editionStmt, pubStmt, sourceDesc, each when present. */
  function FileDesc(fd: Element, ent: Entities, reg: Registry): (r: Emitted)
    ensures reg.agents.Keys <= r.reg.agents.Keys
    ensures r.reg.activities == reg.activities
    ensures Find(fd, "titleStmt").Some? ==> TitleStmt(Find(fd, "titleStmt").value, ent, reg).reg.agents.Keys <= r.reg.agents.Keys
  {
    var t := match Find(fd, "titleStmt") case None => Emitted([], reg) case Some(x) => TitleStmt(x, ent, reg);
    var e := match Find(fd, "editionStmt") case None => Emitted([], t.reg) case Some(x) => EditionStmt(x, ent, t.reg);
    var p := match Find(fd, "pubStmt") case None => Emitted([], e.reg) case Some(x) => PubStmt(x, ent, e.reg);
    var s := match Find(fd, "sourceDesc") case None => Emitted([], p.reg) case Some(x) => SourceDesc(x, ent, p.reg);
    Emitted(t.lines + e.lines + p.lines + s.lines, s.reg)
  }

  /**
   * The tables carry names across the sections of fileDesc: an `edition` with
   * text whose `resp` is `#` followed by the local id of a `persName` in a
   * `respStmt` of the titleStmt is linked to that person's agent.
   */
  lemma FileDescCrossReference(fd: Element, ent: Entities, reg: Registry, ts: Element, rs: Element, p: Element,
                               es: Element, ed: Element)
    requires Find(fd, "titleStmt") == Some(ts) && Find(fd, "editionStmt") == Some(es)
    requires rs in FindAll(ts, "respStmt") && p in FindAll(rs, "persName")
    requires ed in FindAll(es, "edition") && ExtractText(ed) != ""
    requires GetAttr(ed, "resp", "") == "#" + PersonId(p)
    requires ent.work != ""
    ensures var agents := TitleStmt(ts, ent, reg).reg.agents;
      PersonId(p) in agents && EditionCreator(ent, agents[PersonId(p)]) in FileDesc(fd, ent, reg).lines
  {
    var t := TitleStmt(ts, ent, reg);
    var e := EditionStmt(es, ent, t.reg);
    assert GetAttr(ed, "resp", "")[1..] == PersonId(p);
    assert EditionCreator(ent, t.reg.agents[PersonId(p)]) in e.lines;
    FileDescEditions(fd, ent, reg, ts, es);
  }

  /** With a titleStmt and an editionStmt, the editionStmt's lines, read against the titleStmt's tables, are in the output. */
  lemma FileDescEditions(fd: Element, ent: Entities, reg: Registry, ts: Element, es: Element)
    requires Find(fd, "titleStmt") == Some(ts) && Find(fd, "editionStmt") == Some(es)
    ensures forall l :: l in EditionStmt(es, ent, TitleStmt(ts, ent, reg).reg).lines ==> l in FileDesc(fd, ent, reg).lines
  {
  }

  // ----------------------------------------------------------------- appInfo

  /** The local id of the `n`-th application: `xml:id` when present (even empty), else `app_<n>`. */
  function AppId(app: Element, n: nat): string {
    GetAttr(app, XmlId, "app_" + NatToString(n))
  }

  /** Two applications without `xml:id` at different positions get different activity ids. */
  lemma AppIdsDistinct(a: Element, m: nat, b: Element, n: nat)
    requires XmlId !in a.attrs && XmlId !in b.attrs
    ensures AppId(a, m) == AppId(b, n) <==> m == n
  {
    var p := "app_";
    if AppId(a, m) == AppId(b, n) {
      assert NatToString(m) == AppId(a, m)[|p|..];
      assert NatToString(n) == AppId(b, n)[|p|..];
      if m != n { NatToStringInjective(m, n); }
    }
  }

  /** Every value of the activity table is `mei:activity/` followed by its key. */
  predicate Canonical(activities: map<string, string>) {
    forall k :: k in activities ==> activities[k] == "mei:activity/" + k
  }

  /** `[l]` when `c` holds, else nothing: one optional output line. */
  function When(c: bool, l: Line): (r: seq<Line>)
    ensures c ==> r == [l]
    ensures !c ==> r == []
  {
    if c then [l] else []
  }

  /** The optional name, version and timestamp lines on the software agent (parse_provenance_prov.py:420-437). */
  function SoftwareDetails(uri: string, name: string, version: string, start: string, end: string): (r: seq<Line>)
    ensures |r| == (if name != "" then 1 else 0) + (if version != "" then 1 else 0)
      + (if start != "" then 1 else 0) + (if end != "" then 1 else 0)
    ensures forall l :: l in r ==> l.Triple? && l.subject == uri && l.pred != "a"
    ensures name != "" ==> r[0].pred == "foaf:name" && Carries(r[0].obj, name, "")
    ensures version != "" ==> Triple(uri, "dcterms:version", Plain(version), '.') in r
    ensures start != "" ==> Triple(uri, "prov:startedAtTime", Lit(start, "^^xsd:dateTime"), '.') in r
    ensures end != "" ==> Triple(uri, "prov:endedAtTime", Lit(end, "^^xsd:dateTime"), '.') in r
  {
    When(name != "", Triple(uri, "foaf:name", Plain(EscapeTtlLiteral(name)), '.'))
    + When(version != "", Triple(uri, "dcterms:version", Plain(version), '.'))
    + Timestamps(uri, start, end)
  }

  /** `prov:startedAtTime` and `prov:endedAtTime` as `xsd:dateTime`, each when given. */
  function Timestamps(subject: string, start: string, end: string): (r: seq<Line>)
    ensures |r| == (if start != "" then 1 else 0) + (if end != "" then 1 else 0)
    ensures forall l :: l in r ==> l.Triple? && l.subject == subject && l.pred != "a"
    ensures start != "" ==> Triple(subject, "prov:startedAtTime", Lit(start, "^^xsd:dateTime"), '.') in r
    ensures end != "" ==> Triple(subject, "prov:endedAtTime", Lit(end, "^^xsd:dateTime"), '.') in r
  {
    When(start != "", Triple(subject, "prov:startedAtTime", Lit(start, "^^xsd:dateTime"), '.'))
    + When(end != "", Triple(subject, "prov:endedAtTime", Lit(end, "^^xsd:dateTime"), '.'))
  }

  /** The software agent's type declaration. */
  function SoftwareAgentLine(uri: string): Line {
    Triple(uri, "a", QName("prov:SoftwareAgent"), '.')
  }

  /** The activity's use of the work. */
  function UsedLine(ent: Entities): Line {
    More("prov:used", Ref(ent.work), ';')
  }

  /** The activity's generation of the file. */
  function GeneratedLine(ent: Entities): Line {
    More("prov:generated", Ref(ent.file), '.')
  }

  /** The URI of the `n`-th application's encoding activity. */
  function AppActivity(app: Element, n: nat): string {
    "mei:activity/" + ("encoding_" + AppId(app, n))
  }

  /** The activity's type declaration. */
  function ActivityDecl(act: string): Line {
    Triple(act, "a", QName("prov:Activity"), ';')
  }

  /** An application's activity: declared, associated with the software agent `uri`, using the work, generating the file. */
  function ActivityBlock(act: string, uri: string, ent: Entities): seq<Line> {
    [ActivityDecl(act), More("prov:wasAssociatedWith", Ref(uri), ';'), UsedLine(ent), GeneratedLine(ent)]
  }

  /**
   * The `n`-th `application` (parse_provenance_prov.py:412-452): one
   * SoftwareAgent declaration, its optional details, then the activity
   * `encoding_<id>` that is associated with it, used the work and generated
   * the file, registered in `activities`; the agent table is untouched.
   */
  function AppEntry(app: Element, n: nat, ent: Entities, reg: Registry): (r: Emitted)
    ensures r.reg.agents == reg.agents
    ensures var act := "encoding_" + AppId(app, n);
      r.reg.activities == reg.activities[act := "mei:activity/" + act]
    ensures |r.lines| > 0 && r.lines[0] == SoftwareAgentLine("mei:software/" + AppId(app, n))
    ensures Count(r.lines, SoftwareAgentLine("mei:software/" + AppId(app, n))) == 1
    ensures At(r.lines, 1, SoftwareDetails("mei:software/" + AppId(app, n), TextOfFound(Find(app, "name")),
      GetAttr(app, "version", ""), GetAttr(app, "startdate", ""), GetAttr(app, "enddate", "")))
    ensures EndsWith(r.lines, ActivityBlock(AppActivity(app, n), "mei:software/" + AppId(app, n), ent)
      + Timestamps(AppActivity(app, n), GetAttr(app, "startdate", ""), GetAttr(app, "enddate", "")))
    ensures Count(r.lines, ActivityDecl(AppActivity(app, n))) == 1
    ensures Count(r.lines, UsedLine(ent)) == 1
    ensures Count(r.lines, GeneratedLine(ent)) == 1
  {
    var id := AppId(app, n);
    var uri := "mei:software/" + id;
    var actId := "encoding_" + id;
    var act := AppActivity(app, n);
    var start := GetAttr(app, "startdate", "");
    var end := GetAttr(app, "enddate", "");
    var details := SoftwareDetails(uri, TextOfFound(Find(app, "name")), GetAttr(app, "version", ""), start, end);
    Emitted(AppLines(uri, act, details, Timestamps(act, start, end), ent), reg.(activities := reg.activities[actId := act]))
  }

  /**
   * The lines of one application whose software agent is `uri` and whose
   * activity is `act`: the agent declaration, its `details`, the activity
   * block, then the activity's `times`.
   */
  function AppLines(uri: string, act: string, details: seq<Line>, times: seq<Line>, ent: Entities): (r: seq<Line>)
    requires forall l :: l in details ==> l.Triple? && l.pred != "a"
    requires forall l :: l in times ==> l.Triple? && l.pred != "a"
    ensures |r| > 0 && r[0] == SoftwareAgentLine(uri)
    ensures At(r, 1, details)
    ensures EndsWith(r, ActivityBlock(act, uri, ent) + times)
    ensures Count(r, SoftwareAgentLine(uri)) == 1 && Count(r, ActivityDecl(act)) == 1
    ensures Count(r, UsedLine(ent)) == 1 && Count(r, GeneratedLine(ent)) == 1
  {
    var sa := SoftwareAgentLine(uri);
    var assoc := More("prov:wasAssociatedWith", Ref(uri), ';');
    var lines := [sa] + details + [ActivityDecl(act)] + [assoc] + [UsedLine(ent)] + [GeneratedLine(ent)] + times;
    AppEntryCounts(sa, details, ActivityDecl(act), assoc, UsedLine(ent), GeneratedLine(ent), times);
    AppEntrySuffix(lines, [sa] + details, ActivityBlock(act, uri, ent), times);
    AtSecond(lines, sa, details, [ActivityDecl(act)] + [assoc] + [UsedLine(ent)] + [GeneratedLine(ent)] + times);
    lines
  }

  /** Counting over seven concatenated parts adds up the parts' counts. */
  lemma CountSeven(a: seq<Line>, b: seq<Line>, c: seq<Line>, d: seq<Line>, e: seq<Line>, f: seq<Line>, g: seq<Line>, l: Line)
    ensures Count(a + b + c + d + e + f + g, l)
      == Count(a, l) + Count(b, l) + Count(c, l) + Count(d, l) + Count(e, l) + Count(f, l) + Count(g, l)
  {
    CountAppend(a + b + c + d + e + f, g, l);
    CountAppend(a + b + c + d + e, f, l);
    CountAppend(a + b + c + d, e, l);
    CountAppend(a + b + c, d, l);
    CountAppend(a + b, c, l);
    CountAppend(a, b, l);
  }

  lemma CountOne(x: Line, l: Line)
    ensures Count([x], l) == if x == l then 1 else 0
  {
    assert [x][1..] == [];
  }

  /**
   * The four distinguished lines of an application's output (the SoftwareAgent
   * declaration, the activity declaration, its use of the work and its
   * generation of the file) each occur exactly once.
   */
  lemma AppEntryCounts(sa: Line, details: seq<Line>, decl: Line, assoc: Line, used: Line, gen: Line, times: seq<Line>)
    requires sa.Triple? && sa.pred == "a" && sa.obj == QName("prov:SoftwareAgent")
    requires decl.Triple? && decl.pred == "a" && decl.obj == QName("prov:Activity")
    requires assoc.More? && assoc.pred == "prov:wasAssociatedWith"
    requires used.More? && used.pred == "prov:used" && gen.More? && gen.pred == "prov:generated"
    requires forall l :: l in details ==> l.Triple? && l.pred != "a"
    requires forall l :: l in times ==> l.Triple? && l.pred != "a"
    ensures var all := [sa] + details + [decl] + [assoc] + [used] + [gen] + times;
      Count(all, sa) == 1 && Count(all, decl) == 1 && Count(all, used) == 1 && Count(all, gen) == 1
  {
    forall l | l in {sa, decl, used, gen}
      ensures Count([sa] + details + [decl] + [assoc] + [used] + [gen] + times, l) == 1
    {
      CountSeven([sa], details, [decl], [assoc], [used], [gen], times, l);
      CountAbsent(details, l);
      CountAbsent(times, l);
      CountOne(sa, l);
      CountOne(decl, l);
      CountOne(assoc, l);
      CountOne(used, l);
      CountOne(gen, l);
    }
  }

  /** `part` occurs in `lines` starting at position `k`. */
  predicate At(lines: seq<Line>, k: nat, part: seq<Line>) {
    k + |part| <= |lines| && lines[k..k + |part|] == part
  }

  /** What follows a single head line starts at position 1. */
  lemma AtSecond(lines: seq<Line>, head: Line, part: seq<Line>, rest: seq<Line>)
    requires lines == [head] + part + rest
    ensures At(lines, 1, part)
  {
    assert lines[1..1 + |part|] == part;
  }

  /** `lines` closes with `suffix`. */
  predicate EndsWith(lines: seq<Line>, suffix: seq<Line>) {
    |lines| >= |suffix| && lines[|lines| - |suffix|..] == suffix
  }

  /** The activity block and the timestamps close an application's output. */
  lemma AppEntrySuffix(lines: seq<Line>, front: seq<Line>, block: seq<Line>, times: seq<Line>)
    requires |block| == 4
    requires lines == front + [block[0]] + [block[1]] + [block[2]] + [block[3]] + times
    ensures EndsWith(lines, block + times)
  {
    assert lines == front + (block + times);
  }

  /** Applications numbered from `n` on. */
  function Applications(apps: seq<Element>, n: nat, ent: Entities, reg: Registry): (r: Emitted)
    ensures r.reg.agents == reg.agents
    ensures reg.activities.Keys <= r.reg.activities.Keys
    ensures Canonical(reg.activities) ==> Canonical(r.reg.activities)
    ensures forall i :: 0 <= i < |apps| ==> "encoding_" + AppId(apps[i], n + i) in r.reg.activities
    ensures forall i :: 0 <= i < |apps| ==> SoftwareAgentLine("mei:software/" + AppId(apps[i], n + i)) in r.lines
  {
    if |apps| == 0 then Emitted([], reg)
    else
      var first := AppEntry(apps[0], n, ent, reg);
      var rest := Applications(apps[1..], n + 1, ent, first.reg);
      CountPositive(first.lines, SoftwareAgentLine("mei:software/" + AppId(apps[0], n)));
      ApplicationsCons(apps, n, reg, first, rest);
      Emitted(first.lines + rest.lines, rest.reg)
  }

  /** The first application's entry followed by the rest's keeps every promise of Applications. */
  lemma ApplicationsCons(apps: seq<Element>, n: nat, reg: Registry, first: Emitted, rest: Emitted)
    requires |apps| > 0
    requires first.reg.agents == reg.agents
    requires var act := "encoding_" + AppId(apps[0], n);
      first.reg.activities == reg.activities[act := "mei:activity/" + act]
    requires SoftwareAgentLine("mei:software/" + AppId(apps[0], n)) in first.lines
    requires rest.reg.agents == first.reg.agents
    requires first.reg.activities.Keys <= rest.reg.activities.Keys
    requires Canonical(first.reg.activities) ==> Canonical(rest.reg.activities)
    requires forall i :: 0 <= i < |apps[1..]| ==> "encoding_" + AppId(apps[1..][i], n + 1 + i) in rest.reg.activities
    requires forall i :: 0 <= i < |apps[1..]| ==> SoftwareAgentLine("mei:software/" + AppId(apps[1..][i], n + 1 + i)) in rest.lines
    ensures rest.reg.agents == reg.agents
    ensures reg.activities.Keys <= rest.reg.activities.Keys
    ensures Canonical(reg.activities) ==> Canonical(rest.reg.activities)
    ensures forall i :: 0 <= i < |apps| ==> "encoding_" + AppId(apps[i], n + i) in rest.reg.activities
    ensures forall i :: 0 <= i < |apps| ==> SoftwareAgentLine("mei:software/" + AppId(apps[i], n + i)) in first.lines + rest.lines
  {
    forall i | 0 <= i < |apps|
      ensures "encoding_" + AppId(apps[i], n + i) in rest.reg.activities
      ensures SoftwareAgentLine("mei:software/" + AppId(apps[i], n + i)) in first.lines + rest.lines
    {
      if i > 0 {
        assert apps[i] == apps[1..][i - 1] && n + i == n + 1 + (i - 1);
      }
    }
  }

  /**
   * `_process_appinfo` (parse_provenance_prov.py:407-454): applications
   * numbered from 1; the `i`-th (0-based) is registered as `encoding_<id>` with
   * position `i + 1` and its SoftwareAgent is declared.
   */
  function AppInfo(ai: Element, ent: Entities, reg: Registry): (r: Emitted)
    ensures r.reg.agents == reg.agents
    ensures reg.activities.Keys <= r.reg.activities.Keys
    ensures Canonical(reg.activities) ==> Canonical(r.reg.activities)
    ensures var apps := FindAll(ai, "application");
      forall i :: 0 <= i < |apps| ==>
        && "encoding_" + AppId(apps[i], i + 1) in r.reg.activities
        && SoftwareAgentLine("mei:software/" + AppId(apps[i], i + 1)) in r.lines
  {
    Applications(FindAll(ai, "application"), 1, ent, reg)
  }

  /** `_process_encodingdesc` (parse_provenance_prov.py:396-405): the `appInfo` child, when present. */
  function EncodingDesc(ed: Element, ent: Entities, reg: Registry): (r: Emitted)
    ensures r.reg.agents == reg.agents
    ensures reg.activities.Keys <= r.reg.activities.Keys
    ensures Canonical(reg.activities) ==> Canonical(r.reg.activities)
    ensures Find(ed, "appInfo").None? ==> r.lines == [] && r.reg == reg
    ensures Find(ed, "appInfo").Some? ==>
      var apps := FindAll(Find(ed, "appInfo").value, "application");
      forall i :: 0 <= i < |apps| ==> SoftwareAgentLine("mei:software/" + AppId(apps[i], i + 1)) in r.lines
  {
    match Find(ed, "appInfo")
    case None => Emitted([], reg)
    case Some(ai) => AppInfo(ai, ent, reg)
  }

  // ------------------------------------------------------------- revisionDesc

  /** The local id of the `n`-th change: its `n` attribute when present (even empty), else `change_<n>`. */
  function ChangeId(ch: Element, n: nat): string {
    GetAttr(ch, "n", "change_" + NatToString(n))
  }

  /** Two changes without `n` at different positions get different revision ids. */
  lemma ChangeIdsDistinct(a: Element, m: nat, b: Element, n: nat)
    requires "n" !in a.attrs && "n" !in b.attrs
    ensures ChangeId(a, m) == ChangeId(b, n) <==> m == n
  {
    var p := "change_";
    if ChangeId(a, m) == ChangeId(b, n) {
      assert NatToString(m) == ChangeId(a, m)[|p|..];
      assert NatToString(n) == ChangeId(b, n)[|p|..];
      if m != n { NatToStringInjective(m, n); }
    }
  }

  /** The flattened text of `changeDesc/p`, `""` when either is missing. */
  function ChangeText(ch: Element): string {
    match Find(ch, "changeDesc")
    case None => ""
    case Some(cd) => TextOfFound(Find(cd, "p"))
  }

  /** The URI of the `n`-th change's revision activity. */
  function ChangeActivity(ch: Element, n: nat): string {
    "mei:activity/" + ("revision_" + ChangeId(ch, n))
  }

  /** The activity's link to the file it produced; every change ends with it. */
  function ChangeGenerated(act: string, ent: Entities): Line {
    Triple(act, "prov:generated", Ref(ent.file), '.')
  }

  /** The line associating a change with the agent its `resp` names, when that agent is known. */
  function ChangeAssociation(ch: Element, act: string, agents: map<string, string>): seq<Line> {
    var resp := GetAttr(ch, "resp", "");
    if Resolves(resp, agents) then [Triple(act, "prov:wasAssociatedWith", Ref(agents[resp[1..]]), '.')] else []
  }

  /** The description block of a change, when `changeDesc/p` has text. */
  function ChangeDescription(ch: Element, act: string): (r: seq<Line>)
    ensures ChangeText(ch) == "" ==> r == []
    ensures ChangeText(ch) != "" ==>
      && |r| == 2 && r[0] == Triple(act, "a", QName("prov:Activity"), ';')
      && r[1].More? && r[1].pred == "dcterms:description" && r[1].close == '.' && Carries(r[1].obj, ChangeText(ch), "")
  {
    var text := ChangeText(ch);
    if text != "" then [Triple(act, "a", QName("prov:Activity"), ';'), More("dcterms:description", Plain(EscapeTtlLiteral(text)), '.')]
    else []
  }

  /** The end date of a change, when `isodate` is non-empty. */
  function ChangeDate(ch: Element, act: string): (r: seq<Line>)
    ensures GetAttr(ch, "isodate", "") != "" ==> Triple(act, "prov:endedAtTime", Lit(GetAttr(ch, "isodate", ""), "^^xsd:date"), '.') in r
  {
    var isodate := GetAttr(ch, "isodate", "");
    When(isodate != "", Triple(act, "prov:endedAtTime", Lit(isodate, "^^xsd:date"), '.'))
  }

  /**
   * The `n`-th `change` (parse_provenance_prov.py:461-488): description,
   * association, date, then the link to the file; the revision activity is
   * registered in every case. ChangeEntryLines states what the lines contain.
   */
  function ChangeEntry(ch: Element, n: nat, ent: Entities, reg: Registry): (r: Emitted)
    ensures r.reg.agents == reg.agents
    ensures var actId := "revision_" + ChangeId(ch, n);
      r.reg.activities == reg.activities[actId := "mei:activity/" + actId]
  {
    var actId := "revision_" + ChangeId(ch, n);
    Emitted(ChangeBlock(ch, n, ent, reg.agents), reg.(activities := reg.activities[actId := ChangeActivity(ch, n)]))
  }

  /** The lines of the `n`-th change, which depend on the agent table only. */
  function ChangeBlock(ch: Element, n: nat, ent: Entities, agents: map<string, string>): seq<Line> {
    var act := ChangeActivity(ch, n);
    ChangeDescription(ch, act) + ChangeAssociation(ch, act, agents) + ChangeDate(ch, act) + [ChangeGenerated(act, ent)]
  }

  /** The blocks of every change numbered from `n` on, in document order. */
  function ChangeBlocks(chs: seq<Element>, n: nat, ent: Entities, agents: map<string, string>): seq<Line> {
    if |chs| == 0 then [] else ChangeBlock(chs[0], n, ent, agents) + ChangeBlocks(chs[1..], n + 1, ent, agents)
  }

  /**
   * A change's activity is declared exactly when `changeDesc/p` has text, is
   * associated with an agent exactly when `resp` resolves against the agents
   * known so far, and is linked to the file exactly once.
   */
  lemma ChangeEntryLines(ch: Element, n: nat, ent: Entities, reg: Registry)
    ensures var lines := ChangeEntry(ch, n, ent, reg).lines;
      var act := ChangeActivity(ch, n);
      && (Triple(act, "a", QName("prov:Activity"), ';') in lines <==> ChangeText(ch) != "")
      && ((exists l :: l in lines && l.Triple? && l.pred == "prov:wasAssociatedWith") <==>
          Resolves(GetAttr(ch, "resp", ""), reg.agents))
      && (var resp := GetAttr(ch, "resp", "");
          Resolves(resp, reg.agents) ==>
            Triple(act, "prov:wasAssociatedWith", Ref(reg.agents[resp[1..]]), '.') in lines)
      && Count(lines, ChangeGenerated(act, ent)) == 1
  {
    var act := ChangeActivity(ch, n);
    var assoc := ChangeAssociation(ch, act, reg.agents);
    assert ChangeEntry(ch, n, ent, reg).lines == ChangeDescription(ch, act) + assoc + ChangeDate(ch, act) + [ChangeGenerated(act, ent)];
    ChangeLines(Triple(act, "a", QName("prov:Activity"), ';'), ChangeDescription(ch, act),
      assoc, ChangeDate(ch, act), ChangeGenerated(act, ent));
  }

  /**
   * A change with description text opens with its declaration and the
   * `dcterms:description` literal reading back as that text; a non-empty
   * `isodate` ends the activity, typed `xsd:date`.
   */
  lemma ChangeEntryText(ch: Element, n: nat, ent: Entities, reg: Registry)
    ensures var lines := ChangeEntry(ch, n, ent, reg).lines;
      var act := ChangeActivity(ch, n);
      && (ChangeText(ch) != "" ==>
            && |lines| >= 2 && lines[0] == Triple(act, "a", QName("prov:Activity"), ';')
            && lines[1].More? && lines[1].pred == "dcterms:description" && lines[1].close == '.'
            && Carries(lines[1].obj, ChangeText(ch), ""))
      && (var isodate := GetAttr(ch, "isodate", "");
          isodate != "" ==> Triple(act, "prov:endedAtTime", Lit(isodate, "^^xsd:date"), '.') in lines)
  {
    var act := ChangeActivity(ch, n);
    PiecesKept(ChangeDescription(ch, act), ChangeAssociation(ch, act, reg.agents), ChangeDate(ch, act), ChangeGenerated(act, ent));
  }

  /** The output of a change keeps its description as a prefix and every date line. */
  lemma PiecesKept(desc: seq<Line>, assoc: seq<Line>, date: seq<Line>, gen: Line)
    ensures var all := desc + assoc + date + [gen];
      && |all| >= |desc| && (forall i :: 0 <= i < |desc| ==> all[i] == desc[i])
      && (forall l :: l in date ==> l in all)
  {
  }

  /** How the optional pieces of a change's output show up in the whole. */
  lemma ChangeLines(decl: Line, desc: seq<Line>, assoc: seq<Line>, date: seq<Line>, gen: Line)
    requires decl.Triple? && decl.pred == "a"
    requires desc == [] || (|desc| == 2 && desc[0] == decl && desc[1].More?)
    requires forall l :: l in assoc ==> l.Triple? && l.pred == "prov:wasAssociatedWith"
    requires forall l :: l in date ==> l.Triple? && l.pred == "prov:endedAtTime"
    requires gen.Triple? && gen.pred == "prov:generated"
    ensures decl in desc + assoc + date + [gen] <==> desc != []
    ensures (exists l :: l in desc + assoc + date + [gen] && l.Triple? && l.pred == "prov:wasAssociatedWith") <==> assoc != []
    ensures Count(desc + assoc + date + [gen], gen) == 1
  {
    var all := desc + assoc + date + [gen];
    assert forall l :: l in all <==> l in desc || l in assoc || l in date || l == gen;
    if assoc != [] {
      assert assoc[0] in all;
    }
    CountSingle(desc + assoc + date, gen, []);
    assert all == desc + assoc + date + [gen] + [];
  }

  /** Changes numbered from `n` on. */
  function Changes(chs: seq<Element>, n: nat, ent: Entities, reg: Registry): (r: Emitted)
    ensures r.reg.agents == reg.agents
    ensures reg.activities.Keys <= r.reg.activities.Keys
    ensures Canonical(reg.activities) ==> Canonical(r.reg.activities)
    ensures forall i :: 0 <= i < |chs| ==> "revision_" + ChangeId(chs[i], n + i) in r.reg.activities
    ensures forall i :: 0 <= i < |chs| ==> ChangeGenerated(ChangeActivity(chs[i], n + i), ent) in r.lines
  {
    if |chs| == 0 then Emitted([], reg)
    else
      var first := ChangeEntry(chs[0], n, ent, reg);
      var rest := Changes(chs[1..], n + 1, ent, first.reg);
      ChangeEntryGenerated(chs[0], n, ent, reg);
      ChangesCons(chs, n, ent, reg, first, rest);
      Emitted(first.lines + rest.lines, rest.reg)
  }

  /** Every change's output links its activity to the file. */
  lemma ChangeEntryGenerated(ch: Element, n: nat, ent: Entities, reg: Registry)
    ensures ChangeGenerated(ChangeActivity(ch, n), ent) in ChangeEntry(ch, n, ent, reg).lines
  {
    assert ChangeEntry(ch, n, ent, reg).lines == ChangeBlock(ch, n, ent, reg.agents);
  }

  /** The first change's entry followed by the rest's keeps every promise of Changes. */
  lemma ChangesCons(chs: seq<Element>, n: nat, ent: Entities, reg: Registry, first: Emitted, rest: Emitted)
    requires |chs| > 0
    requires first.reg.agents == reg.agents
    requires var actId := "revision_" + ChangeId(chs[0], n);
      first.reg.activities == reg.activities[actId := "mei:activity/" + actId]
    requires ChangeGenerated(ChangeActivity(chs[0], n), ent) in first.lines
    requires rest.reg.agents == first.reg.agents
    requires first.reg.activities.Keys <= rest.reg.activities.Keys
    requires Canonical(first.reg.activities) ==> Canonical(rest.reg.activities)
    requires forall i :: 0 <= i < |chs[1..]| ==> "revision_" + ChangeId(chs[1..][i], n + 1 + i) in rest.reg.activities
    requires forall i :: 0 <= i < |chs[1..]| ==> ChangeGenerated(ChangeActivity(chs[1..][i], n + 1 + i), ent) in rest.lines
    ensures rest.reg.agents == reg.agents
    ensures reg.activities.Keys <= rest.reg.activities.Keys
    ensures Canonical(reg.activities) ==> Canonical(rest.reg.activities)
    ensures forall i :: 0 <= i < |chs| ==> "revision_" + ChangeId(chs[i], n + i) in rest.reg.activities
    ensures forall i :: 0 <= i < |chs| ==> ChangeGenerated(ChangeActivity(chs[i], n + i), ent) in first.lines + rest.lines
  {
    forall i | 0 <= i < |chs|
      ensures "revision_" + ChangeId(chs[i], n + i) in rest.reg.activities
      ensures ChangeGenerated(ChangeActivity(chs[i], n + i), ent) in first.lines + rest.lines
    {
      if i > 0 {
        assert chs[i] == chs[1..][i - 1] && n + i == n + 1 + (i - 1);
      }
    }
  }

  /** The association line of a change whose `resp` resolves to `agent`. */
  function ChangeAssociated(act: string, agent: string): Line {
    Triple(act, "prov:wasAssociatedWith", Ref(agent), '.')
  }

  /**
   * The output of the changes is each change's block in document order,
   * resolved against the agent table they started with, whatever the activity
   * table holds.
   */
  lemma {:induction false} ChangesBlocks(chs: seq<Element>, n: nat, ent: Entities, reg: Registry)
    ensures Changes(chs, n, ent, reg).lines == ChangeBlocks(chs, n, ent, reg.agents)
  {
    if |chs| > 0 {
      var first := ChangeEntry(chs[0], n, ent, reg);
      assert first.reg.agents == reg.agents;
      ChangesBlocks(chs[1..], n + 1, ent, first.reg);
    }
  }

  /**
   * Every change whose `resp` resolves against the agent table is associated
   * with that agent; changes never alter the agent table, so every change
   * resolves against the same one.
   */
  lemma {:induction false} ChangesAssociated(chs: seq<Element>, n: nat, ent: Entities, reg: Registry)
    ensures forall i :: 0 <= i < |chs| && Resolves(GetAttr(chs[i], "resp", ""), reg.agents) ==>
      ChangeAssociated(ChangeActivity(chs[i], n + i), reg.agents[GetAttr(chs[i], "resp", "")[1..]])
        in Changes(chs, n, ent, reg).lines
  {
    ChangesBlocks(chs, n, ent, reg);
    ChangeBlocksAssociated(chs, n, ent, reg.agents);
  }

  /** Every change of `chs`, numbered from `n`, whose `resp` resolves against `agents` has its association line in `lines`. */
  predicate AssociatedFrom(chs: seq<Element>, n: nat, agents: map<string, string>, lines: seq<Line>) {
    forall i :: 0 <= i < |chs| && Resolves(GetAttr(chs[i], "resp", ""), agents) ==>
      ChangeAssociated(ChangeActivity(chs[i], n + i), agents[GetAttr(chs[i], "resp", "")[1..]]) in lines
  }

  lemma {:induction false} ChangeBlocksAssociated(chs: seq<Element>, n: nat, ent: Entities, agents: map<string, string>)
    ensures AssociatedFrom(chs, n, agents, ChangeBlocks(chs, n, ent, agents))
  {
    if |chs| > 0 {
      ChangeBlockAssociated(chs[0], n, ent, agents);
      ChangeBlocksAssociated(chs[1..], n + 1, ent, agents);
      ChangesAssociatedCons(chs, n, agents, ChangeBlock(chs[0], n, ent, agents), ChangeBlocks(chs[1..], n + 1, ent, agents));
    }
  }

  /** A change whose `resp` resolves is associated with that agent. */
  lemma ChangeBlockAssociated(ch: Element, n: nat, ent: Entities, agents: map<string, string>)
    ensures Resolves(GetAttr(ch, "resp", ""), agents) ==>
      ChangeAssociated(ChangeActivity(ch, n), agents[GetAttr(ch, "resp", "")[1..]]) in ChangeBlock(ch, n, ent, agents)
  {
  }

  /** The associations of the first change and of the rest are all in their concatenation. */
  lemma ChangesAssociatedCons(chs: seq<Element>, n: nat, agents: map<string, string>, first: seq<Line>, rest: seq<Line>)
    requires |chs| > 0
    requires Resolves(GetAttr(chs[0], "resp", ""), agents) ==>
      ChangeAssociated(ChangeActivity(chs[0], n), agents[GetAttr(chs[0], "resp", "")[1..]]) in first
    requires AssociatedFrom(chs[1..], n + 1, agents, rest)
    ensures AssociatedFrom(chs, n, agents, first + rest)
  {
    forall i | 0 <= i < |chs| && Resolves(GetAttr(chs[i], "resp", ""), agents)
      ensures ChangeAssociated(ChangeActivity(chs[i], n + i), agents[GetAttr(chs[i], "resp", "")[1..]]) in first + rest
    {
      if i > 0 {
        assert chs[i] == chs[1..][i - 1] && n + i == n + 1 + (i - 1);
      }
    }
  }

  /**
   * `_process_revisiondesc` (parse_provenance_prov.py:456-490): changes
   * numbered from 1; the `i`-th (0-based) is registered as `revision_<id>`
   * with position `i + 1` and linked to the file.
   */
  function RevisionDesc(rd: Element, ent: Entities, reg: Registry): (r: Emitted)
    ensures r.reg.agents == reg.agents
    ensures reg.activities.Keys <= r.reg.activities.Keys
    ensures Canonical(reg.activities) ==> Canonical(r.reg.activities)
    ensures var chs := FindAll(rd, "change");
      forall i :: 0 <= i < |chs| ==>
        && "revision_" + ChangeId(chs[i], i + 1) in r.reg.activities
        && ChangeGenerated(ChangeActivity(chs[i], i + 1), ent) in r.lines
  {
    Changes(FindAll(rd, "change"), 1, ent, reg)
  }

  // --------------------------------------------------------------- top level

  /** `Path(p).name`: the last component after trailing slashes are dropped. */
  function BaseName(path: string): (r: string)
    ensures '/' !in r
    ensures |r| <= |RStripSlash(path)| && r == RStripSlash(path)[|RStripSlash(path)| - |r|..]
    ensures '/' in RStripSlash(path) ==> RStripSlash(path)[|RStripSlash(path)| - |r| - 1] == '/'
    ensures '/' !in RStripSlash(path) ==> r == RStripSlash(path)
  {
    AfterLast(RStripSlash(path), '/')
  }

  /**
   * `Path(p).stem`: the name without its last suffix, where a suffix starts at
   * the last dot, which must be neither the first nor the final character.
   */
  function Stem(path: string): (r: string)
    ensures StemOf(BaseName(path), r)
  {
    var name := BaseName(path);
    var i := LastIndexOf(name, '.');
    StemCut(name, i);
    if 0 < i < |name| - 1 then name[..i] else name
  }

  /** `r` is the stem of the file name `name`. */
  predicate StemOf(name: string, r: string) {
    && |r| <= |name| && name[..|r|] == r
    && (r != name ==> 0 < |r| < |name| - 1 && name[|r|] == '.' && '.' !in name[|r| + 1..])
    && (r == name ==> forall i :: 0 < i < |name| - 1 && name[i] == '.' ==> '.' in name[i + 1..])
  }

  /** Cutting at the last dot, when it lies strictly inside the name, gives the stem; otherwise the name is its own stem. */
  lemma StemCut(name: string, i: int)
    requires -1 <= i < |name|
    requires i >= 0 ==> name[i] == '.'
    requires forall j :: i < j < |name| ==> name[j] != '.'
    ensures StemOf(name, if 0 < i < |name| - 1 then name[..i] else name)
  {
    if 0 < i < |name| - 1 {
      assert forall j :: i < j < |name| ==> name[i + 1..][j - i - 1] == name[j];
    } else {
      forall k | 0 < k < |name| - 1 && name[k] == '.' ensures '.' in name[k + 1..] {
        assert name[k + 1..][i - k - 1] == '.';
      }
    }
  }

  /**
   * The three entity URIs (parse_provenance_prov.py:101-108): the file is
   * named after the slug of the file name, the work and the edition after the
   * slug of its stem; every slug is free of '/', '.' and whitespace.
   */
  function FileEntities(path: string): (r: Entities)
    ensures r.file == "mei:file/" + Clean(BaseName(path))
    ensures r.work == "mei:work/" + Clean(Stem(path))
    ensures r.edition == "mei:edition/" + r.work[9..] + "_edition"
    ensures forall c :: c in r.file[9..] ==> SlugChar(c)
    ensures forall c :: c in r.work[9..] ==> SlugChar(c)
  {
    var fileSlug := Clean(BaseName(path));
    var workSlug := Clean(Stem(path));
    var file := "mei:file/" + fileSlug;
    var work := "mei:work/" + workSlug;
    assert file[9..] == fileSlug && work[9..] == workSlug;
    Entities(file, work, "mei:edition/" + workSlug + "_edition")
  }

  /** The file entity block (parse_provenance_prov.py:123-128); the path goes into its literal unescaped. */
  function FileEntityLines(path: string, ent: Entities): seq<Line> {
    [Raw("# MEI File Entity"),
     Triple(ent.file, "a", QName("prov:Entity"), ';'),
     More("dcterms:type", Plain("MEI Music Encoding"), ';'),
     More("dcterms:source", Plain(path), '.'),
     Raw("")]
  }

  lemma PrefixOfAppend(a: seq<Line>, b: seq<Line>)
    ensures (a + b)[..|a|] == a
  {
  }

  /**
   * The lines `generate_prov_ttl` joins (parse_provenance_prov.py:97-147): the
   * prefixes, the file entity, then fileDesc, encodingDesc and revisionDesc,
   * each only when present, threading the agent and activity tables, which
   * start empty.
   */
  function Mapping(head: Element, path: string): (r: seq<Line>)
    ensures |r| >= |Preamble| + 5 && r[..|Preamble| + 5] == Preamble + FileEntityLines(path, FileEntities(path))
    ensures Find(head, "fileDesc").None? && Find(head, "encodingDesc").None? && Find(head, "revisionDesc").None? ==>
      r == Preamble + FileEntityLines(path, FileEntities(path))
  {
    var ent := FileEntities(path);
    var reg := Registry(map[], map[]);
    var fd := match Find(head, "fileDesc") case None => Emitted([], reg) case Some(x) => FileDesc(x, ent, reg);
    var ed := match Find(head, "encodingDesc") case None => Emitted([], fd.reg) case Some(x) => EncodingDesc(x, ent, fd.reg);
    var rd := match Find(head, "revisionDesc") case None => Emitted([], ed.reg) case Some(x) => RevisionDesc(x, ent, ed.reg);
    var front := Preamble + FileEntityLines(path, ent);
    var body := fd.lines + ed.lines + rd.lines;
    assert |front| == |Preamble| + 5;
    PrefixOfAppend(front, body);
    front + body
  }

  /** With an `encodingDesc/appInfo`, every application's SoftwareAgent reaches the document, numbered from 1. */
  lemma MappingApplications(head: Element, path: string)
    requires Find(head, "encodingDesc").Some? && Find(Find(head, "encodingDesc").value, "appInfo").Some?
    ensures var apps := FindAll(Find(Find(head, "encodingDesc").value, "appInfo").value, "application");
      forall i :: 0 <= i < |apps| ==> SoftwareAgentLine("mei:software/" + AppId(apps[i], i + 1)) in Mapping(head, path)
  {
  }

  /** With a `revisionDesc`, every change's revision activity is linked to the file in the document, numbered from 1. */
  lemma MappingChanges(head: Element, path: string)
    requires Find(head, "revisionDesc").Some?
    ensures var chs := FindAll(Find(head, "revisionDesc").value, "change");
      forall i :: 0 <= i < |chs| ==> ChangeGenerated(ChangeActivity(chs[i], i + 1), FileEntities(path)) in Mapping(head, path)
  {
  }

  /** The agent table fileDesc leaves behind; encodingDesc and revisionDesc read it unchanged. */
  function AgentsAfterFileDesc(head: Element, ent: Entities): map<string, string> {
    match Find(head, "fileDesc")
    case None => map[]
    case Some(fd) => FileDesc(fd, ent, Registry(map[], map[])).reg.agents
  }

  /**
   * A change whose `resp` resolves against the agents declared in fileDesc is
   * associated with that agent in the document, numbered from 1.
   */
  lemma MappingAssociations(head: Element, path: string)
    requires Find(head, "revisionDesc").Some?
    ensures AssociatedFrom(FindAll(Find(head, "revisionDesc").value, "change"), 1,
      AgentsAfterFileDesc(head, FileEntities(path)), Mapping(head, path))
  {
    var ent := FileEntities(path);
    var chs := FindAll(Find(head, "revisionDesc").value, "change");
    var agents := AgentsAfterFileDesc(head, ent);
    MappingRevisions(head, path);
    ChangeBlocksAssociated(chs, 1, ent, agents);
    AssociatedWithin(chs, 1, agents, ChangeBlocks(chs, 1, ent, agents), Mapping(head, path));
  }

  /** Associations present in some lines are present in any lines containing them. */
  lemma AssociatedWithin(chs: seq<Element>, n: nat, agents: map<string, string>, part: seq<Line>, whole: seq<Line>)
    requires AssociatedFrom(chs, n, agents, part)
    requires forall l :: l in part ==> l in whole
    ensures AssociatedFrom(chs, n, agents, whole)
  {
  }

  /** The changes' blocks, resolved against the agents fileDesc leaves behind, are in the document. */
  lemma MappingRevisions(head: Element, path: string)
    requires Find(head, "revisionDesc").Some?
    ensures var ent := FileEntities(path);
      forall l :: l in ChangeBlocks(FindAll(Find(head, "revisionDesc").value, "change"), 1, ent, AgentsAfterFileDesc(head, ent)) ==>
        l in Mapping(head, path)
  {
    var ent := FileEntities(path);
    var reg := Registry(map[], map[]);
    var fd := match Find(head, "fileDesc") case None => Emitted([], reg) case Some(x) => FileDesc(x, ent, reg);
    var ed := match Find(head, "encodingDesc") case None => Emitted([], fd.reg) case Some(x) => EncodingDesc(x, ent, fd.reg);
    ChangesBlocks(FindAll(Find(head, "revisionDesc").value, "change"), 1, ent, ed.reg);
  }

  /**
   * The tables carry names from fileDesc to revisionDesc: a change whose
   * `resp` is `#` followed by the local id of a `persName` in a `respStmt` of
   * the titleStmt is associated with that person's agent.
   */
  lemma MappingCrossReference(head: Element, path: string, fd: Element, ts: Element, rs: Element, p: Element, i: nat)
    requires Find(head, "fileDesc") == Some(fd) && Find(fd, "titleStmt") == Some(ts)
    requires rs in FindAll(ts, "respStmt") && p in FindAll(rs, "persName")
    requires Find(head, "revisionDesc").Some?
    requires i < |FindAll(Find(head, "revisionDesc").value, "change")|
    requires GetAttr(FindAll(Find(head, "revisionDesc").value, "change")[i], "resp", "") == "#" + PersonId(p)
    ensures var agents := AgentsAfterFileDesc(head, FileEntities(path));
      PersonId(p) in agents
      && ChangeAssociated(ChangeActivity(FindAll(Find(head, "revisionDesc").value, "change")[i], i + 1), agents[PersonId(p)])
        in Mapping(head, path)
  {
    var ent := FileEntities(path);
    var chs := FindAll(Find(head, "revisionDesc").value, "change");
    var agents := AgentsAfterFileDesc(head, ent);
    FileDescRegisters(head, ent, fd, ts, rs, p);
    assert GetAttr(chs[i], "resp", "")[1..] == PersonId(p);
    MappingAssociations(head, path);
    AssociatedAt(chs, 1, agents, Mapping(head, path), i);
  }

  /** Every `persName` of a `respStmt` in the titleStmt is a known agent once fileDesc is done. */
  lemma FileDescRegisters(head: Element, ent: Entities, fd: Element, ts: Element, rs: Element, p: Element)
    requires Find(head, "fileDesc") == Some(fd) && Find(fd, "titleStmt") == Some(ts)
    requires rs in FindAll(ts, "respStmt") && p in FindAll(rs, "persName")
    requires ent.work != ""
    ensures PersonId(p) in AgentsAfterFileDesc(head, ent)
  {
    assert PersonId(p) in TitleStmt(ts, ent, Registry(map[], map[])).reg.agents;
  }

  /** One change's association, read off `AssociatedFrom`. */
  lemma AssociatedAt(chs: seq<Element>, n: nat, agents: map<string, string>, lines: seq<Line>, i: nat)
    requires AssociatedFrom(chs, n, agents, lines)
    requires i < |chs| && Resolves(GetAttr(chs[i], "resp", ""), agents)
    ensures ChangeAssociated(ChangeActivity(chs[i], n + i), agents[GetAttr(chs[i], "resp", "")[1..]]) in lines
  {
  }

  /** `generate_prov_ttl`: the rendered lines joined by newlines; the document opens with the PROV prefix. */
  function GenerateProvTtl(head: Element, path: string): (r: string)
    ensures var first := "@prefix prov: <http://www.w3.org/ns/prov#> .";
      |r| > |first| && r[..|first| + 1] == first + "\n"
  {
    var lines := Mapping(head, path);
    assert lines[0] == lines[..|Preamble| + 5][0];
    RenderedHead(lines);
    Join(RenderAll(lines), "\n")
  }

  /** Rendering and joining lines that start with a raw line puts that line, then a newline, first. */
  lemma RenderedHead(lines: seq<Line>)
    requires |lines| >= 2 && lines[0] == Preamble[0]
    ensures var first := "@prefix prov: <http://www.w3.org/ns/prov#> .";
      var r := Join(RenderAll(lines), "\n");
      |r| > |first| && r[..|first| + 1] == first + "\n"
  {
    JoinHead(RenderAll(lines), "\n");
  }
}

=== FILE: scenarios.dfy ===
/** A single title element run through `TitleLines`: plain text reaches the output verbatim. */
module Scenarios {
  import opened Optional
  import opened Text
  import opened TurtleEscape
  import opened XmlTree
  import opened TextContent
  import opened TurtleLines
  import opened ProvMapper

  /** A leaf MEI element with the given attributes and text. */
  function Leaf(local: string, attrs: map<string, string>, text: string): Element {
    Element(MeiTag(local), attrs, Some(text), None, [])
  }

  /** Text with no surrounding whitespace and nothing Turtle must escape. */
  predicate PlainText(text: string) {
    && text != ""
    && !IsSpace(text[0]) && !IsSpace(text[|text| - 1])
    && forall i :: 0 <= i < |text| ==> !Special(text[i])
  }

  /** Text that needs no stripping comes out of a leaf verbatim. */
  lemma LeafText(local: string, attrs: map<string, string>, text: string)
    requires text != "" && !IsSpace(text[0]) && !IsSpace(text[|text| - 1])
    ensures ExtractText(Leaf(local, attrs, text)) == text
  {
    var e := Leaf(local, attrs, text);
    assert e.text == Some(text) && e.children == [];
    assert PartOf(e.text) + ChildParts(e.children) == [text] by {
      assert PartOf(e.text) == [Strip(text)] by { StripNoop(text); }
      assert Strip(text) == text by { StripNoop(text); }
    }
    assert Strip(Join([text], " ")) == text by { StripNoop(text); }
  }

  /** `<title type="T">text</title>` with plain text gives one title line on the work, tagged `@T`. */
  lemma PlainTitle(work: string, text: string, titleType: string)
    requires PlainText(text)
    ensures TitleLines([Leaf("title", map["type" := titleType], text)], work)
      == [Triple(work, "dcterms:title", Lit(text, "@" + titleType), '.')]
  {
    var t := Leaf("title", map["type" := titleType], text);
    TitleLinesSingle(t, work);
    LeafText("title", map["type" := titleType], text);
    EscapeTtlLiteralNoop(text);
  }

  /** `<title>text</title>` without a type attribute is tagged with the default type `main`. */
  lemma UntypedTitle(work: string, text: string, attrs: map<string, string>)
    requires PlainText(text) && "type" !in attrs
    ensures TitleLines([Leaf("title", attrs, text)], work)
      == [Triple(work, "dcterms:title", Lit(text, "@" + DefaultTitleType), '.')]
  {
    var t := Leaf("title", attrs, text);
    TitleLinesSingle(t, work);
    LeafText("title", attrs, text);
    EscapeTtlLiteralNoop(text);
  }
}

=== FILE: slug.dfy ===
/**
 * The identifier utilities of parse_provenance_prov.py: `_clean_uri`, which
 * turns free text into a URI slug, and `_generate_uri`, which appends such a
 * slug to a base URI.
 */
module Slug {
  import opened Text

  /** The characters `re.sub(r'[^\w\s-]', '', ...)` keeps. */
  predicate Kept(c: char) {
    IsWordChar(c) || IsSpace(c) || c == '-'
  }

  /** `re.sub(r'[^\w\s-]', '', s)`: every character outside `\w`, `\s` and `-` is deleted. */
  function DropSpecials(s: string): (r: string)
    ensures |r| <= |s|
    ensures forall i :: 0 <= i < |r| ==> Kept(r[i])
  {
    if |s| == 0 then [] else (if Kept(s[0]) then [s[0]] else []) + DropSpecials(s[1..])
  }

  /** `re.sub(r'\s+', '_', s)`: every maximal whitespace run becomes one underscore. */
  function UnderscoreRuns(s: string): (r: string)
    ensures forall i :: 0 <= i < |r| ==> !IsSpace(r[i])
    ensures forall i :: 0 <= i < |r| ==> r[i] == '_' || r[i] in s
    decreases |s|
  {
    if |s| == 0 then []
    else if IsSpace(s[0]) then
      var rest := TrimLeft(s);
      assert forall c :: c in rest ==> c in s;
      "_" + UnderscoreRuns(rest)
    else [s[0]] + UnderscoreRuns(s[1..])
  }

  /** The characters a slug is made of. */
  predicate SlugChar(c: char) {
    (IsWordChar(c) || c == '-') && !IsUpper(c)
  }

  /**
   * `_clean_uri` (parse_provenance_prov.py:35-42): empty input gives the empty
   * slug; otherwise drop special characters, strip, turn whitespace runs into
   * `_` and lower-case.
   */
  function Clean(s: string): (r: string)
    ensures s == "" ==> r == ""
    ensures forall i :: 0 <= i < |r| ==> SlugChar(r[i])
    ensures forall i :: 0 <= i < |r| ==> !IsSpace(r[i])
  {
    if s == "" then ""
    else
      CleanChars(s);
      Lower(UnderscoreRuns(Strip(DropSpecials(s))))
  }

  lemma CleanChars(s: string)
    ensures var r := Lower(UnderscoreRuns(Strip(DropSpecials(s))));
      forall i :: 0 <= i < |r| ==> SlugChar(r[i]) && !IsSpace(r[i])
  {
    var kept := DropSpecials(s);
    assert forall c :: c in kept ==> Kept(c);
    var stripped := Strip(kept);
    StripPreserves(kept, Kept);
    assert forall c :: c in stripped ==> Kept(c);
    var joined := UnderscoreRuns(stripped);
    forall i | 0 <= i < |joined| ensures IsWordChar(joined[i]) || joined[i] == '-' {
      assert joined[i] == '_' || joined[i] in stripped;
    }
    var r := Lower(joined);
    forall i | 0 <= i < |r| ensures SlugChar(r[i]) && !IsSpace(r[i]) {
      assert r[i] == LowerChar(joined[i]);
    }
  }

  lemma {:induction false} DropSpecialsNoop(s: string)
    requires forall i :: 0 <= i < |s| ==> Kept(s[i])
    ensures DropSpecials(s) == s
  {
    if |s| > 0 {
      DropSpecialsNoop(s[1..]);
    }
  }

  lemma {:induction false} UnderscoreRunsNoop(s: string)
    requires forall i :: 0 <= i < |s| ==> !IsSpace(s[i])
    ensures UnderscoreRuns(s) == s
  {
    if |s| > 0 {
      UnderscoreRunsNoop(s[1..]);
    }
  }

  /** Lower-case ASCII letters, digits, `_` and `-` survive cleaning unchanged. */
  lemma CleanNoop(s: string)
    requires forall i :: 0 <= i < |s| ==> SlugChar(s[i])
    ensures Clean(s) == s
  {
    if s != "" {
      assert forall i :: 0 <= i < |s| ==> Kept(s[i]) && !IsSpace(s[i]) && !IsUpper(s[i]) by {
        forall i | 0 <= i < |s| ensures Kept(s[i]) && !IsSpace(s[i]) && !IsUpper(s[i]) {
          assert SlugChar(s[i]);
        }
      }
      DropSpecialsNoop(s);
      StripNoop(s);
      UnderscoreRunsNoop(s);
      LowerNoop(s);
    }
  }

  /** Only slug characters. */
  predicate IsSlug(s: string) {
    forall i :: 0 <= i < |s| ==> SlugChar(s[i])
  }

  /** Text without whitespace passes through the run replacement unchanged in front of the rest. */
  lemma {:induction false} UnderscoreRunsPrefix(x: string, y: string)
    requires forall i :: 0 <= i < |x| ==> !IsSpace(x[i])
    ensures UnderscoreRuns(x + y) == x + UnderscoreRuns(y)
  {
    if |x| > 0 {
      assert (x + y)[0] == x[0] && (x + y)[1..] == x[1..] + y;
      UnderscoreRunsPrefix(x[1..], y);
      assert [x[0]] + (x[1..] + UnderscoreRuns(y)) == x + UnderscoreRuns(y);
    } else {
      assert x + y == y;
    }
  }

  /** A whole whitespace run becomes a single `_`. */
  lemma UnderscoreRunsRun(w: string, b: string)
    requires w != [] && AllSpace(w) && (b == [] || !IsSpace(b[0]))
    ensures UnderscoreRuns(w + b) == "_" + UnderscoreRuns(b)
  {
    assert (w + b)[0] == w[0];
    LeadingSpacesAfter(w, b);
    assert TrimLeft(w + b) == b by {
      assert (w + b)[|w|..] == b;
    }
  }

  /** What `DropSpecials` and `Strip` leave alone: a slug character or whitespace. */
  predicate SlugOrSpace(c: char) {
    SlugChar(c) || IsSpace(c)
  }

  /** A slug with whitespace on both sides or inside, as a character property. */
  lemma SlugOrSpaceParts(a: string, w: string)
    requires IsSlug(a) && AllSpace(w)
    ensures forall i :: 0 <= i < |a| ==> SlugOrSpace(a[i]) && !IsSpace(a[i]) && !IsUpper(a[i])
    ensures forall i :: 0 <= i < |w| ==> SlugOrSpace(w[i])
  {
  }

  /** Clean of a string with no special characters, followed step by step. */
  lemma CleanSteps(s: string, t: string, r: string)
    requires s != "" && DropSpecials(s) == s && Strip(s) == t
    requires UnderscoreRuns(t) == r && Lower(r) == r
    ensures Clean(s) == r
  {
  }

  /** Every slug character and every whitespace character survives `DropSpecials`. */
  lemma SlugAndSpacesKept(s: string)
    requires forall i :: 0 <= i < |s| ==> SlugOrSpace(s[i])
    ensures DropSpecials(s) == s
  {
    DropSpecialsNoop(s);
  }

  /** A whitespace run between two whitespace-free strings becomes one underscore. */
  lemma UnderscoreRunsBetween(a: string, w: string, b: string)
    requires forall i :: 0 <= i < |a| ==> !IsSpace(a[i])
    requires forall i :: 0 <= i < |b| ==> !IsSpace(b[i])
    requires w != "" && AllSpace(w)
    ensures UnderscoreRuns(a + w + b) == a + "_" + b
  {
    var tail := w + b;
    assert UnderscoreRuns(a + tail) == a + UnderscoreRuns(tail) by {
      UnderscoreRunsPrefix(a, tail);
    }
    assert UnderscoreRuns(tail) == "_" + b by {
      assert b == [] || !IsSpace(b[0]);
      UnderscoreRunsRun(w, b);
      UnderscoreRunsNoop(b);
    }
    assert a + w + b == a + tail;
    assert a + ("_" + b) == a + "_" + b;
  }

  /** A whitespace run between two slugs becomes one underscore. */
  lemma CleanSpaceRun(a: string, w: string, b: string)
    requires a != "" && b != "" && IsSlug(a) && IsSlug(b)
    requires w != "" && AllSpace(w)
    ensures Clean(a + w + b) == a + "_" + b
  {
    SlugOrSpaceParts(a, w);
    SlugOrSpaceParts(b, w);
    AllConcat(a, w, SlugOrSpace);
    AllConcat(a + w, b, SlugOrSpace);
    var s := a + w + b;
    SlugAndSpacesKept(s);
    assert s[0] == a[0] && s[|s| - 1] == b[|b| - 1];
    StripNoop(s);
    UnderscoreRunsBetween(a, w, b);
    var under := "_";
    assert !IsUpper(under[0]);
    AllConcat(a, under, c => !IsUpper(c));
    AllConcat(a + under, b, c => !IsUpper(c));
    LowerNoop(a + under + b);
    CleanSteps(s, s, a + "_" + b);
  }

  /** Whitespace around a slug is trimmed, not turned into underscores. */
  lemma CleanTrims(w: string, a: string, v: string)
    requires a != "" && IsSlug(a)
    requires AllSpace(w) && AllSpace(v)
    ensures Clean(w + a + v) == a
  {
    SlugOrSpaceParts(a, w);
    SlugOrSpaceParts(a, v);
    AllConcat(w, a, SlugOrSpace);
    AllConcat(w + a, v, SlugOrSpace);
    var s := w + a + v;
    SlugAndSpacesKept(s);
    assert SlugChar(a[0]) && SlugChar(a[|a| - 1]);
    StripSurrounded(w, a, v);
    UnderscoreRunsNoop(a);
    LowerNoop(a);
    CleanSteps(s, a, a);
  }

  /** `_clean_uri` is idempotent: a slug cleans to itself. */
  lemma CleanIdempotent(s: string)
    ensures Clean(Clean(s)) == Clean(s)
  {
    CleanNoop(Clean(s));
  }

  /** The characters that make a slug non-empty: `\w` and `-`. */
  predicate Substantive(c: char) {
    IsWordChar(c) || c == '-'
  }

  /** Dropping specials leaves only whitespace exactly when the input has no word character or hyphen. */
  lemma {:induction false} DropSpecialsBlank(s: string)
    ensures AllSpace(DropSpecials(s)) <==> forall i :: 0 <= i < |s| ==> !Substantive(s[i])
  {
    if |s| > 0 {
      DropSpecialsBlank(s[1..]);
      var head := if Kept(s[0]) then [s[0]] else [];
      var tail := DropSpecials(s[1..]);
      assert DropSpecials(s) == head + tail;
      assert AllSpace(head + tail) <==> AllSpace(head) && AllSpace(tail) by {
        assert forall i :: 0 <= i < |head| ==> (head + tail)[i] == head[i];
        assert forall i :: 0 <= i < |tail| ==> (head + tail)[|head| + i] == tail[i];
      }
      assert forall i :: 1 <= i < |s| ==> s[i] == s[1..][i - 1];
    }
  }

  /** The slug is empty exactly when the text has no word character and no hyphen. */
  lemma CleanEmpty(s: string)
    ensures Clean(s) == "" <==> forall i :: 0 <= i < |s| ==> !Substantive(s[i])
  {
    if s != "" {
      DropSpecialsBlank(s);
      var t := Strip(DropSpecials(s));
      assert |UnderscoreRuns(t)| == 0 <==> t == [];
    }
  }

  lemma {:induction false} DropSpecialsLower(s: string)
    ensures DropSpecials(Lower(s)) == Lower(DropSpecials(s))
  {
    if |s| > 0 {
      LowerPrefix(s);
      DropSpecialsLower(s[1..]);
      var t := DropSpecials(s[1..]);
      if Kept(s[0]) {
        assert DropSpecials(s) == [s[0]] + t;
        assert Lower([s[0]] + t) == [LowerChar(s[0])] + Lower(t) by {
          LowerPrefix([s[0]] + t);
          assert ([s[0]] + t)[1..] == t;
        }
      }
    }
  }

  lemma {:induction false} UnderscoreRunsLower(s: string)
    ensures UnderscoreRuns(Lower(s)) == Lower(UnderscoreRuns(s))
    decreases |s|
  {
    if |s| > 0 {
      LowerPrefix(s);
      if IsSpace(s[0]) {
        TrimLeftLower(s);
        UnderscoreRunsLower(TrimLeft(s));
        var u := UnderscoreRuns(TrimLeft(s));
        LowerPrefix("_" + u);
        assert ("_" + u)[1..] == u;
      } else {
        UnderscoreRunsLower(s[1..]);
        var u := UnderscoreRuns(s[1..]);
        LowerPrefix([s[0]] + u);
        assert ([s[0]] + u)[1..] == u;
      }
    }
  }

  /** Lower-casing the input first does not change the slug. */
  lemma CleanOfLower(s: string)
    ensures Clean(Lower(s)) == Clean(s)
  {
    if s != "" {
      DropSpecialsLower(s);
      StripLower(DropSpecials(s));
      UnderscoreRunsLower(Strip(DropSpecials(s)));
      LowerIdempotent(UnderscoreRuns(Strip(DropSpecials(s))));
    }
  }

  /** Inputs that differ only in letter case give the same slug. */
  lemma CleanCaseInsensitive(a: string, b: string)
    requires Lower(a) == Lower(b)
    ensures Clean(a) == Clean(b)
  {
    CleanOfLower(a);
    CleanOfLower(b);
  }

  /** `base.rstrip('/')`: every trailing slash removed. */
  function RStripSlash(s: string): (r: string)
    ensures |r| <= |s| && r == s[..|r|]
    ensures forall i :: |r| <= i < |s| ==> s[i] == '/'
    ensures r == [] || r[|r| - 1] != '/'
  {
    if |s| > 0 && s[|s| - 1] == '/' then RStripSlash(s[..|s| - 1]) else s
  }

  /**
   * `r` is `base` with its trailing slashes removed, then one slash, then
   * `slug`: the cut point `n` is where the trailing slash run of `base` starts.
   */
  predicate SlugAppended(base: string, slug: string, r: string) {
    var n := |r| - |slug| - 1;
    && 0 <= n <= |base|
    && r[n + 1..] == slug
    && r[n] == '/'
    && r[..n] == base[..n]
    && (n == 0 || base[n - 1] != '/')
    && (forall i :: n <= i < |base| ==> base[i] == '/')
  }

  /** `f"{base.rstrip('/')}/{slug}"`. */
  function AppendSlug(base: string, slug: string): (r: string)
    ensures SlugAppended(base, slug, r)
  {
    var head := RStripSlash(base);
    var r := head + "/" + slug;
    assert r[..|head|] == head && r[|head|] == '/' && r[|head| + 1..] == slug;
    assert head == base[..|head|];
    assert |head| == 0 || base[|head| - 1] == head[|head| - 1];
    r
  }

  /**
   * `_generate_uri` (parse_provenance_prov.py:44-49): the base itself when the
   * identifier is empty; otherwise the base without its trailing slashes, one
   * slash, and the identifier's slug.
   */
  function GenerateUri(base: string, id: string): (r: string)
    ensures id == "" ==> r == base
    ensures id != "" ==> SlugAppended(base, Clean(id), r)
  {
    if id == "" then base else AppendSlug(base, Clean(id))
  }
}

=== FILE: text.dfy ===
/**
 * ASCII character classes and the string primitives the mappers build on:
 * Python's `str.isspace`, the regex class `\w`, `str.lower`, `str.strip`
 * and `str.join`, restricted to the ASCII range.
 */
module Text {

  /** `str.isspace` on ASCII: space, TAB, LF, VT, FF, CR and the separators 0x1C..0x1F. */
  predicate IsSpace(c: char) {
    c == ' ' || (9 <= c as int <= 13) || (28 <= c as int <= 31)
  }

  /** The regex class `\w` on ASCII: letters, digits and underscore. */
  predicate IsWordChar(c: char) {
    ('a' <= c <= 'z') || ('A' <= c <= 'Z') || ('0' <= c <= '9') || c == '_'
  }

  predicate IsUpper(c: char) {
    'A' <= c <= 'Z'
  }

  predicate AllSpace(s: string) {
    forall i :: 0 <= i < |s| ==> IsSpace(s[i])
  }

  /** `str.lower` on one ASCII character. */
  function LowerChar(c: char): (r: char)
    ensures !IsUpper(r)
    ensures IsSpace(r) == IsSpace(c) && IsWordChar(r) == IsWordChar(c)
    ensures (r == '_') == (c == '_') && (r == '-') == (c == '-')
  {
    if IsUpper(c) then (c as int + 32) as char else c
  }

  /** `str.lower` on an ASCII string. */
  function Lower(s: string): (r: string)
    ensures |r| == |s|
    ensures forall i :: 0 <= i < |s| ==> r[i] == LowerChar(s[i])
  {
    if |s| == 0 then [] else [LowerChar(s[0])] + Lower(s[1..])
  }

  /** The length of the leading whitespace run. */
  function LeadingSpaces(s: string): (k: nat)
    ensures k <= |s|
    ensures forall i :: 0 <= i < k ==> IsSpace(s[i])
    ensures k < |s| ==> !IsSpace(s[k])
  {
    if |s| > 0 && IsSpace(s[0]) then 1 + LeadingSpaces(s[1..]) else 0
  }

  /** Where the trailing whitespace run starts. */
  function ContentEnd(s: string): (n: nat)
    ensures n <= |s|
    ensures forall i :: n <= i < |s| ==> IsSpace(s[i])
    ensures n > 0 ==> !IsSpace(s[n - 1])
  {
    if |s| > 0 && IsSpace(s[|s| - 1]) then ContentEnd(s[..|s| - 1]) else |s|
  }

  /** `str.lstrip()`: drops the leading whitespace run. */
  function TrimLeft(s: string): (r: string)
    ensures |r| <= |s|
    ensures r == [] || !IsSpace(r[0])
  {
    s[LeadingSpaces(s)..]
  }

  /** `str.rstrip()`: drops the trailing whitespace run. */
  function TrimRight(s: string): (r: string)
    ensures |r| <= |s|
    ensures r == [] || !IsSpace(r[|r| - 1])
  {
    s[..ContentEnd(s)]
  }

  /** `str.strip()`: whitespace removed from both ends, nothing else touched. */
  function Strip(s: string): (r: string)
    ensures |r| <= |s|
    ensures r == [] || (!IsSpace(r[0]) && !IsSpace(r[|r| - 1]))
    ensures r == [] <==> AllSpace(s)
  {
    StripEmpty(s);
    TrimRight(TrimLeft(s))
  }

  lemma StripEmpty(s: string)
    ensures TrimRight(TrimLeft(s)) == [] <==> AllSpace(s)
  {
    var l := TrimLeft(s);
    var r := TrimRight(l);
    var k := |s| - |l|;
    if r == [] {
      assert l[|r|..] == l && AllSpace(l);
      assert |l| == 0;
      assert s[..k] == s;
    } else {
      assert l[0] == s[k] && !IsSpace(l[0]);
    }
  }

  /** Every character of the strip comes from `s`, so a property of all of `s`'s characters carries over. */
  lemma StripPreserves(s: string, P: char -> bool)
    requires forall i :: 0 <= i < |s| ==> P(s[i])
    ensures forall i :: 0 <= i < |Strip(s)| ==> P(Strip(s)[i])
  {
    var l := TrimLeft(s);
    var r := TrimRight(l);
    var k := |s| - |l|;
    assert l == s[k..];
    assert r == l[..|r|];
    forall i | 0 <= i < |r| ensures P(r[i]) {
      assert r[i] == l[i] == s[k + i];
    }
  }

  /** `sep.join(parts)`. */
  function Join(parts: seq<string>, sep: string): string {
    if |parts| == 0 then ""
    else if |parts| == 1 then parts[0]
    else parts[0] + sep + Join(parts[1..], sep)
  }

  /** The first part and separator open a join of two or more parts. */
  lemma JoinHead(parts: seq<string>, sep: string)
    requires |parts| >= 2
    ensures |Join(parts, sep)| >= |parts[0]| + |sep|
    ensures Join(parts, sep)[..|parts[0]| + |sep|] == parts[0] + sep
  {
    assert Join(parts, sep) == parts[0] + sep + Join(parts[1..], sep);
  }

  /** The text after the last `c`, or all of `s` when `c` does not occur: `s.rsplit(c, 1)[-1]`. */
  function AfterLast(s: string, c: char): (r: string)
    ensures c !in r
    ensures |r| <= |s| && r == s[|s| - |r|..]
    ensures c in s ==> s[|s| - |r| - 1] == c
    ensures c !in s ==> r == s
  {
    if |s| == 0 then ""
    else if s[|s| - 1] == c then ""
    else
      var init := s[..|s| - 1];
      var r := AfterLast(init, c) + [s[|s| - 1]];
      assert s == init + [s[|s| - 1]];
      assert c in s ==> c in init;
      r
  }

  /** Position of the last `c` in `s`, or -1 when it does not occur: `s.rfind(c)`. */
  function LastIndexOf(s: string, c: char): (r: int)
    ensures -1 <= r < |s|
    ensures r >= 0 ==> s[r] == c
    ensures forall i :: r < i < |s| ==> s[i] != c
  {
    if |s| == 0 then -1
    else if s[|s| - 1] == c then |s| - 1
    else LastIndexOf(s[..|s| - 1], c)
  }

  /** A whitespace prefix in front of non-space text is exactly the leading run. */
  lemma {:induction false} LeadingSpacesAfter(w: string, t: string)
    requires AllSpace(w) && (t == [] || !IsSpace(t[0]))
    ensures LeadingSpaces(w + t) == |w|
  {
    if |w| == 0 {
      assert w + t == t;
    } else {
      assert (w + t)[0] == w[0] && (w + t)[1..] == w[1..] + t;
      LeadingSpacesAfter(w[1..], t);
    }
  }

  /** A whitespace suffix after non-space text is exactly the trailing run. */
  lemma {:induction false} ContentEndBefore(t: string, w: string)
    requires AllSpace(w) && (t == [] || !IsSpace(t[|t| - 1]))
    ensures ContentEnd(t + w) == |t|
  {
    if |w| == 0 {
      assert t + w == t;
    } else {
      var s := t + w;
      assert s[|s| - 1] == w[|w| - 1];
      assert s[..|s| - 1] == t + w[..|w| - 1];
      ContentEndBefore(t, w[..|w| - 1]);
    }
  }

  /** Stripping removes whitespace around text, and only that. */
  lemma StripSurrounded(w: string, a: string, v: string)
    requires AllSpace(w) && AllSpace(v)
    requires a != [] && !IsSpace(a[0]) && !IsSpace(a[|a| - 1])
    ensures Strip(w + a + v) == a
  {
    assert w + a + v == w + (a + v);
    LeadingSpacesAfter(w, a + v);
    assert TrimLeft(w + a + v) == a + v by {
      assert (w + (a + v))[|w|..] == a + v;
    }
    ContentEndBefore(a, v);
    assert TrimRight(a + v) == a by {
      assert (a + v)[..|a|] == a;
    }
  }

  /** A character property that holds throughout two strings holds throughout their concatenation. */
  lemma AllConcat(x: string, y: string, P: char -> bool)
    requires forall i :: 0 <= i < |x| ==> P(x[i])
    requires forall i :: 0 <= i < |y| ==> P(y[i])
    ensures forall i :: 0 <= i < |x + y| ==> P((x + y)[i])
  {
    forall i | 0 <= i < |x + y| ensures P((x + y)[i]) {
      if i < |x| {
        assert (x + y)[i] == x[i];
      } else {
        assert (x + y)[i] == y[i - |x|];
      }
    }
  }

  /** A string with no surrounding whitespace is its own strip. */
  lemma StripNoop(s: string)
    requires s == [] || (!IsSpace(s[0]) && !IsSpace(s[|s| - 1]))
    ensures Strip(s) == s
  {
  }

  /** A string joined with single spaces is blank exactly when every part is. */
  lemma {:induction false} JoinSpacesBlank(parts: seq<string>)
    ensures AllSpace(Join(parts, " ")) <==> forall i :: 0 <= i < |parts| ==> AllSpace(parts[i])
  {
    if |parts| > 1 {
      JoinSpacesBlank(parts[1..]);
      var j := Join(parts, " ");
      assert j == parts[0] + " " + Join(parts[1..], " ");
      if AllSpace(j) {
        assert forall k :: 0 <= k < |parts[0]| ==> j[k] == parts[0][k];
        assert forall k :: 0 <= k < |Join(parts[1..], " ")| ==>
          j[|parts[0]| + 1 + k] == Join(parts[1..], " ")[k];
        assert forall i :: 1 <= i < |parts| ==> parts[i] == parts[1..][i - 1];
      } else {
        assert forall i :: 1 <= i < |parts| ==> parts[i] == parts[1..][i - 1];
      }
    }
  }

  lemma LowerPrefix(s: string)
    requires |s| > 0
    ensures Lower(s)[1..] == Lower(s[1..]) && Lower(s)[0] == LowerChar(s[0])
  {
  }

  /** Lower-casing twice is lower-casing once. */
  lemma LowerIdempotent(s: string)
    ensures Lower(Lower(s)) == Lower(s)
  {
  }

  /** A string without capitals is its own lower-case form. */
  lemma LowerNoop(s: string)
    requires forall i :: 0 <= i < |s| ==> !IsUpper(s[i])
    ensures Lower(s) == s
  {
  }

  /** Lower-casing neither creates nor removes whitespace, so stripping commutes with it. */
  lemma {:induction false} LeadingSpacesLower(s: string)
    ensures LeadingSpaces(Lower(s)) == LeadingSpaces(s)
  {
    if |s| > 0 {
      LowerPrefix(s);
      LeadingSpacesLower(s[1..]);
    }
  }

  lemma {:induction false} ContentEndLower(s: string)
    ensures ContentEnd(Lower(s)) == ContentEnd(s)
  {
    if |s| > 0 {
      var n := |s| - 1;
      assert Lower(s)[..n] == Lower(s[..n]);
      ContentEndLower(s[..n]);
    }
  }

  lemma TrimLeftLower(s: string)
    ensures TrimLeft(Lower(s)) == Lower(TrimLeft(s))
  {
    LeadingSpacesLower(s);
    var k := LeadingSpaces(s);
    assert Lower(s)[k..] == Lower(s[k..]);
  }

  lemma TrimRightLower(s: string)
    ensures TrimRight(Lower(s)) == Lower(TrimRight(s))
  {
    ContentEndLower(s);
    var n := ContentEnd(s);
    assert Lower(s)[..n] == Lower(s[..n]);
  }

  lemma StripLower(s: string)
    ensures Strip(Lower(s)) == Lower(Strip(s))
  {
    TrimLeftLower(s);
    TrimRightLower(TrimLeft(s));
  }
}

=== FILE: text_content.dfy ===
/** `_extract_text_content` (parse_provenance_prov.py:65-77): a one-level text flattener. */
module TextContent {
  import opened Optional
  import opened Text
  import opened XmlTree

  /** `if x: parts.append(x.strip())`: truthy text contributes its stripped form. */
  function PartOf(o: Option<string>): seq<string> {
    if o.Some? && o.value != "" then [Strip(o.value)] else []
  }

  /** The parts the loop over direct children appends: each child's text, then its tail. */
  function ChildParts(cs: seq<Element>): seq<string> {
    if |cs| == 0 then [] else PartOf(cs[0].text) + PartOf(cs[0].tail) + ChildParts(cs[1..])
  }

  /** `" ".join(parts).strip()` over the element's own text and its children's text and tails. */
  function ExtractText(e: Element): (r: string)
    ensures r == [] || (!IsSpace(r[0]) && !IsSpace(r[|r| - 1]))
  {
    var joined := Join(PartOf(e.text) + ChildParts(e.children), " ");
    Strip(joined)
  }

  /** Absent text, or text made only of whitespace. */
  predicate Blank(o: Option<string>) {
    o.None? || AllSpace(o.value)
  }

  predicate AllBlank(parts: seq<string>) {
    forall i :: 0 <= i < |parts| ==> AllSpace(parts[i])
  }

  lemma AllBlankAppend(a: seq<string>, b: seq<string>)
    ensures AllBlank(a + b) <==> AllBlank(a) && AllBlank(b)
  {
    if AllBlank(a) && AllBlank(b) {
      forall i | 0 <= i < |a + b| ensures AllSpace((a + b)[i]) {
        if i >= |a| {
          assert (a + b)[i] == b[i - |a|];
        }
      }
    }
    if AllBlank(a + b) {
      forall i | 0 <= i < |b| ensures AllSpace(b[i]) {
        assert (a + b)[|a| + i] == b[i];
      }
      forall i | 0 <= i < |a| ensures AllSpace(a[i]) {
        assert (a + b)[i] == a[i];
      }
    }
  }

  lemma PartOfBlank(o: Option<string>)
    ensures AllBlank(PartOf(o)) <==> Blank(o)
  {
    if o.Some? && o.value != "" {
      assert PartOf(o)[0] == Strip(o.value);
    }
  }

  lemma {:induction false} ChildPartsBlank(cs: seq<Element>)
    ensures AllBlank(ChildParts(cs)) <==>
      forall i :: 0 <= i < |cs| ==> Blank(cs[i].text) && Blank(cs[i].tail)
  {
    if |cs| > 0 {
      ChildPartsBlank(cs[1..]);
      PartOfBlank(cs[0].text);
      PartOfBlank(cs[0].tail);
      AllBlankAppend(PartOf(cs[0].text), PartOf(cs[0].tail));
      AllBlankAppend(PartOf(cs[0].text) + PartOf(cs[0].tail), ChildParts(cs[1..]));
      forall i | 1 <= i < |cs| ensures cs[i].text == cs[1..][i - 1].text && cs[i].tail == cs[1..][i - 1].tail {
      }
    }
  }

  /**
   * The flattened text is empty exactly when the element's own text and every
   * direct child's text and tail are absent or whitespace.
   */
  lemma ExtractTextEmptyIff(e: Element)
    ensures ExtractText(e) == "" <==>
      Blank(e.text) && forall i :: 0 <= i < |e.children| ==> Blank(e.children[i].text) && Blank(e.children[i].tail)
  {
    var parts := PartOf(e.text) + ChildParts(e.children);
    JoinSpacesBlank(parts);
    AllBlankAppend(PartOf(e.text), ChildParts(e.children));
    PartOfBlank(e.text);
    ChildPartsBlank(e.children);
  }

  /** Two child lists whose texts and tails agree pairwise. */
  predicate SameFrontier(a: seq<Element>, b: seq<Element>) {
    |a| == |b| && forall i :: 0 <= i < |a| ==> a[i].text == b[i].text && a[i].tail == b[i].tail
  }

  lemma {:induction false} ChildPartsFrontier(a: seq<Element>, b: seq<Element>)
    requires SameFrontier(a, b)
    ensures ChildParts(a) == ChildParts(b)
  {
    if |a| > 0 {
      assert SameFrontier(a[1..], b[1..]) by {
        assert forall i :: 0 <= i < |a| - 1 ==> a[1..][i] == a[i + 1] && b[1..][i] == b[i + 1];
      }
      ChildPartsFrontier(a[1..], b[1..]);
    }
  }

  /**
   * Only the element's own text and its direct children's text and tails are
   * read: attributes, tags and everything below the children (grandchildren's
   * text included) never reach the result.
   */
  lemma ExtractTextShallow(a: Element, b: Element)
    requires a.text == b.text
    requires SameFrontier(a.children, b.children)
    ensures ExtractText(a) == ExtractText(b)
  {
    ChildPartsFrontier(a.children, b.children);
  }

  /** Non-empty text with no whitespace at either end. */
  predicate Trimmed(s: string) {
    s != "" && !IsSpace(s[0]) && !IsSpace(s[|s| - 1])
  }

  /**
   * The parts are joined in document order: the element's own text, then the
   * child's text, then the child's tail, one space between each.
   */
  lemma ExtractTextOrder(tag: string, attrs: map<string, string>, a: string, b: string, c: string,
                         childTag: string, childAttrs: map<string, string>)
    requires Trimmed(a) && Trimmed(b) && Trimmed(c)
    ensures ExtractText(Element(tag, attrs, Some(a), None, [Element(childTag, childAttrs, Some(b), Some(c), [])]))
      == a + " " + b + " " + c
  {
    var child := Element(childTag, childAttrs, Some(b), Some(c), []);
    var e := Element(tag, attrs, Some(a), None, [child]);
    StripNoop(a);
    StripNoop(b);
    StripNoop(c);
    assert PartOf(e.text) == [a];
    assert [child][1..] == [];
    assert ChildParts(e.children) == [b] + [c] + [];
    var parts := [a] + ([b] + [c] + []);
    assert parts == [a, b, c];
    assert parts[1..] == [b, c] && parts[1..][1..] == [c];
    assert Join([c], " ") == c;
    assert Join([b, c], " ") == b + " " + c;
    assert Join(parts, " ") == a + " " + (b + " " + c);
    var j := a + " " + b + " " + c;
    assert j == a + " " + (b + " " + c);
    assert j[0] == a[0] && j[|j| - 1] == c[|c| - 1];
    StripNoop(j);
  }
}

=== FILE: turtle_escape.dfy ===
/**
 * `_escape_ttl_literal` (parse_provenance_prov.py:51-63) and the decoding
 * side it must agree with: the ECHAR escapes of section 6.4 of RDF 1.1 Turtle
 * and the body of a STRING_LITERAL_QUOTE token from the grammar of section 6.5.
 */
module TurtleEscape {
  import opened Optional

  /** `s.replace(c, rep)` for a one-character pattern. */
  function ReplaceChar(s: string, c: char, rep: string): (r: string)
  {
    if |s| == 0 then "" else (if s[0] == c then rep else [s[0]]) + ReplaceChar(s[1..], c, rep)
  }

  /**
   * The function as written: five `str.replace` passes, backslash first, then
   * double quote, LF, CR and TAB; empty input returns the empty string.
   */
  function EscapeTtlLiteral(s: string): (r: string)
    ensures s == "" ==> r == ""
    ensures forall i :: 0 <= i < |r| ==> r[i] != '\n' && r[i] != '\r' && r[i] != '\t'
    ensures ValidQuoteBody(r)
    ensures Unescape(r) == Some(s)
  {
    if s == "" then ""
    else
      var r := ReplaceChar(ReplaceChar(ReplaceChar(ReplaceChar(ReplaceChar(
        s, '\\', "\\\\"), '"', "\\\""), '\n', "\\n"), '\r', "\\r"), '\t', "\\t");
      EscapeTtlLiteralIsCharwise(s);
      EscapeRoundTrip(s);
      r
  }

  /** What the five passes do to one input character. */
  function EscapeChar(c: char): string {
    if c == '\\' then "\\\\"
    else if c == '"' then "\\\""
    else if c == '\n' then "\\n"
    else if c == '\r' then "\\r"
    else if c == '\t' then "\\t"
    else [c]
  }

  /** The reference escaper: every character replaced independently. */
  function Escape(s: string): (r: string)
    ensures forall i :: 0 <= i < |r| ==> r[i] != '\n' && r[i] != '\r' && r[i] != '\t'
    ensures ValidQuoteBody(r)
  {
    if |s| == 0 then ""
    else
      var rest := Escape(s[1..]);
      var r := EscapeChar(s[0]) + rest;
      assert |EscapeChar(s[0])| == 2 ==> r[2..] == rest;
      assert |EscapeChar(s[0])| == 1 ==> r[1..] == rest;
      r
  }
  /** A character that `_escape_ttl_literal` rewrites. */
  predicate Special(c: char) {
    c == '\\' || c == '"' || c == '\n' || c == '\r' || c == '\t'
  }

  /** Text without special characters passes through escaping unchanged. */
  lemma {:induction false} EscapeNoop(s: string)
    requires forall i :: 0 <= i < |s| ==> !Special(s[i])
    ensures Escape(s) == s
  {
    if |s| > 0 {
      EscapeNoop(s[1..]);
      assert s == [s[0]] + s[1..];
    }
  }

  /** `_escape_ttl_literal` is the identity on text without special characters. */
  lemma EscapeTtlLiteralNoop(s: string)
    requires forall i :: 0 <= i < |s| ==> !Special(s[i])
    ensures EscapeTtlLiteral(s) == s
  {
    EscapeNoop(s);
    EscapeTtlLiteralIsCharwise(s);
  }

  /** The ECHAR letters of section 6.4 of RDF 1.1 Turtle. */
  predicate IsEchar(c: char) {
    c == 't' || c == 'b' || c == 'n' || c == 'r' || c == 'f' || c == '"' || c == '\'' || c == '\\'
  }

  /** The character an ECHAR escape stands for (section 6.4 of RDF 1.1 Turtle). */
  function EcharValue(c: char): char
    requires IsEchar(c)
  {
    if c == 't' then '\t'
    else if c == 'b' then 8 as char
    else if c == 'n' then '\n'
    else if c == 'r' then '\r'
    else if c == 'f' then 12 as char
    else c
  }

  /**
   * A body of STRING_LITERAL_QUOTE (section 6.5 of RDF 1.1 Turtle) built from
   * plain characters and ECHAR escapes: no raw `"`, `\`, LF or CR, and every
   * backslash opens an escape pair.
   */
  predicate ValidQuoteBody(s: string)
    decreases |s|
  {
    if |s| == 0 then true
    else if s[0] == '\\' then |s| >= 2 && IsEchar(s[1]) && ValidQuoteBody(s[2..])
    else s[0] != '"' && s[0] != '\n' && s[0] != '\r' && ValidQuoteBody(s[1..])
  }

  /** Decodes ECHAR escapes; a backslash that does not open one is an error. */
  function Unescape(s: string): Option<string>
    decreases |s|
  {
    if |s| == 0 then Some("")
    else if s[0] == '\\' then
      if |s| >= 2 && IsEchar(s[1]) then
        match Unescape(s[2..])
        case None => None
        case Some(t) => Some([EcharValue(s[1])] + t)
      else None
    else
      match Unescape(s[1..])
      case None => None
      case Some(t) => Some([s[0]] + t)
  }

  lemma {:induction false} ReplaceCharAppend(a: string, b: string, c: char, rep: string)
    ensures ReplaceChar(a + b, c, rep) == ReplaceChar(a, c, rep) + ReplaceChar(b, c, rep)
  {
    if |a| > 0 {
      assert (a + b)[1..] == a[1..] + b;
      ReplaceCharAppend(a[1..], b, c, rep);
    } else {
      assert a + b == b;
    }
  }

  /** The five passes applied to an escaped character's text. */
  function Passes(s: string): string {
    ReplaceChar(ReplaceChar(ReplaceChar(ReplaceChar(ReplaceChar(
      s, '\\', "\\\\"), '"', "\\\""), '\n', "\\n"), '\r', "\\r"), '\t', "\\t")
  }

  lemma PassesAppend(a: string, b: string)
    ensures Passes(a + b) == Passes(a) + Passes(b)
  {
    var s1a, s1b := ReplaceChar(a, '\\', "\\\\"), ReplaceChar(b, '\\', "\\\\");
    ReplaceCharAppend(a, b, '\\', "\\\\");
    var s2a, s2b := ReplaceChar(s1a, '"', "\\\""), ReplaceChar(s1b, '"', "\\\"");
    ReplaceCharAppend(s1a, s1b, '"', "\\\"");
    var s3a, s3b := ReplaceChar(s2a, '\n', "\\n"), ReplaceChar(s2b, '\n', "\\n");
    ReplaceCharAppend(s2a, s2b, '\n', "\\n");
    var s4a, s4b := ReplaceChar(s3a, '\r', "\\r"), ReplaceChar(s3b, '\r', "\\r");
    ReplaceCharAppend(s3a, s3b, '\r', "\\r");
    ReplaceCharAppend(s4a, s4b, '\t', "\\t");
  }

  lemma {:induction false} ReplaceCharAbsent(s: string, c: char, rep: string)
    requires c !in s
    ensures ReplaceChar(s, c, rep) == s
  {
    if |s| > 0 {
      ReplaceCharAbsent(s[1..], c, rep);
    }
  }

  lemma ReplaceCharSingle(x: char, c: char, rep: string)
    ensures ReplaceChar([x], c, rep) == if x == c then rep else [x]
  {
    assert [x][1..] == [];
  }

  lemma PassesOneChar(c: char)
    ensures Passes([c]) == EscapeChar(c)
  {
    ReplaceCharSingle(c, '\\', "\\\\");
    var s1 := ReplaceChar([c], '\\', "\\\\");
    if c == '\\' {
      ReplaceCharAbsent(s1, '"', "\\\"");
      ReplaceCharAbsent(s1, '\n', "\\n");
      ReplaceCharAbsent(s1, '\r', "\\r");
      ReplaceCharAbsent(s1, '\t', "\\t");
    } else {
      ReplaceCharSingle(c, '"', "\\\"");
      var s2 := ReplaceChar(s1, '"', "\\\"");
      if c == '"' {
        ReplaceCharAbsent(s2, '\n', "\\n");
        ReplaceCharAbsent(s2, '\r', "\\r");
        ReplaceCharAbsent(s2, '\t', "\\t");
      } else {
        ReplaceCharSingle(c, '\n', "\\n");
        var s3 := ReplaceChar(s2, '\n', "\\n");
        if c == '\n' {
          ReplaceCharAbsent(s3, '\r', "\\r");
          ReplaceCharAbsent(s3, '\t', "\\t");
        } else {
          ReplaceCharSingle(c, '\r', "\\r");
          var s4 := ReplaceChar(s3, '\r', "\\r");
          if c == '\r' {
            ReplaceCharAbsent(s4, '\t', "\\t");
          } else {
            ReplaceCharSingle(c, '\t', "\\t");
          }
        }
      }
    }
  }

  /**
   * Because backslash is replaced first, no later pass rewrites a backslash
   * an earlier pass introduced: the sequential passes escape each character
   * on its own.
   */
  lemma {:induction false} EscapeTtlLiteralIsCharwise(s: string)
    ensures Passes(s) == Escape(s)
  {
    if |s| > 0 {
      assert s == [s[0]] + s[1..];
      PassesAppend([s[0]], s[1..]);
      PassesOneChar(s[0]);
      EscapeTtlLiteralIsCharwise(s[1..]);
    }
  }

  lemma UnescapeEscapeChar(c: char, t: string)
    ensures Unescape(EscapeChar(c) + t) == match Unescape(t) { case None => None case Some(u) => Some([c] + u) }
  {
    var e := EscapeChar(c) + t;
    if |EscapeChar(c)| == 2 {
      assert e[2..] == t;
    } else {
      assert e[1..] == t;
    }
  }

  /** Decoding the escaped text with the ECHAR rules gives back the input. */
  lemma {:induction false} EscapeRoundTrip(s: string)
    ensures Unescape(Escape(s)) == Some(s)
  {
    if |s| > 0 {
      EscapeRoundTrip(s[1..]);
      UnescapeEscapeChar(s[0], Escape(s[1..]));
      assert [s[0]] + s[1..] == s;
    }
  }
}

=== FILE: turtle_lines.dfy ===
/**
 * The Turtle lines the provenance mapper appends, kept as structured values
 * and rendered to exactly the text of the corresponding f-string.
 */
module TurtleLines {
  import opened Text

  /** An object position: `<uri>`, `"body"suffix` (suffix such as `@main` or `^^xsd:date`), or a prefixed name. */
  datatype Term =
    | Ref(uri: string)
    | Lit(body: string, suffix: string)
    | QName(name: string)

  /**
   * One output line: free text (prefix declarations, comments, blank lines),
   * a statement opening with its subject `<s> p o .`, or a continuation
   * `    p o ;` of the previous subject. `close` is the `.` or `;` closing it.
   */
  datatype Line =
    | Raw(text: string)
    | Triple(subject: string, pred: string, obj: Term, close: char)
    | More(pred: string, obj: Term, close: char)

  function RenderTerm(t: Term): string {
    match t
    case Ref(u) => "<" + u + ">"
    case Lit(b, sfx) => "\"" + b + "\"" + sfx
    case QName(n) => n
  }

  function Render(l: Line): string {
    match l
    case Raw(t) => t
    case Triple(s, p, o, e) => "<" + s + "> " + p + " " + RenderTerm(o) + " " + [e]
    case More(p, o, e) => "    " + p + " " + RenderTerm(o) + " " + [e]
  }

  function RenderAll(lines: seq<Line>): (r: seq<string>)
    ensures |r| == |lines| && forall i :: 0 <= i < |lines| ==> r[i] == Render(lines[i])
  {
    seq(|lines|, i requires 0 <= i < |lines| => Render(lines[i]))
  }

  /** How many times `l` occurs in `lines`. */
  function Count(lines: seq<Line>, l: Line): nat {
    if |lines| == 0 then 0 else (if lines[0] == l then 1 else 0) + Count(lines[1..], l)
  }

  lemma {:induction false} CountAppend(a: seq<Line>, b: seq<Line>, l: Line)
    ensures Count(a + b, l) == Count(a, l) + Count(b, l)
  {
    if |a| == 0 {
      assert a + b == b;
    } else {
      assert (a + b)[1..] == a[1..] + b;
      CountAppend(a[1..], b, l);
    }
  }

  lemma {:induction false} CountAbsent(lines: seq<Line>, l: Line)
    requires l !in lines
    ensures Count(lines, l) == 0
  {
    if |lines| > 0 {
      CountAbsent(lines[1..], l);
    }
  }

  lemma {:induction false} CountPositive(lines: seq<Line>, l: Line)
    requires Count(lines, l) > 0
    ensures l in lines
  {
    if lines[0] != l {
      CountPositive(lines[1..], l);
    }
  }

  /** A line that occurs once between two stretches free of it is counted once. */
  lemma CountSingle(a: seq<Line>, l: Line, b: seq<Line>)
    requires l !in a && l !in b
    ensures Count(a + [l] + b, l) == 1
  {
    CountAppend(a + [l], b, l);
    CountAppend(a, [l], l);
    CountAbsent(a, l);
    CountAbsent(b, l);
  }

  /** The six prefix declarations and the blank line every output starts with. */
  const Preamble: seq<Line> := [
    Raw("@prefix prov: <http://www.w3.org/ns/prov#> ."),
    Raw("@prefix foaf: <http://xmlns.com/foaf/0.1/> ."),
    Raw("@prefix dcterms: <http://purl.org/dc/terms/> ."),
    Raw("@prefix bibo: <http://purl.org/ontology/bibo/> ."),
    Raw("@prefix mei: <http://www.music-encoding.org/ns/mei#> ."),
    Raw("@prefix xsd: <http://www.w3.org/2001/XMLSchema#> ."),
    Raw("")
  ]
}

=== FILE: xml_tree.dfy ===
/**
 * The parsed element tree both scripts read (an ElementTree `Element`), the
 * lookups they use on it, and the header locator shared by
 * parse_provenance.py and parse_provenance_prov.py.
 */
module XmlTree {
  import opened Optional
  import opened Text

  /**
   * An element: qualified tag `{ns}local`, attribute map, the text before the
   * first child, the text after the element's own end tag, and the children.
   */
  datatype Element = Element(
    tag: string,
    attrs: map<string, string>,
    text: Option<string>,
    tail: Option<string>,
    children: seq<Element>)

  /** The MEI namespace, bound to the prefix `mei` in both scripts. */
  const MeiNs: string := "http://www.music-encoding.org/ns/mei"

  /** The attribute key ElementTree gives `xml:id`. */
  const XmlId: string := "{http://www.w3.org/XML/1998/namespace}id"

  /** The qualified tag ElementTree gives `mei:<local>`. */
  function MeiTag(local: string): string {
    "{" + MeiNs + "}" + local
  }

  /** `x or ""` for optional text. */
  function TextOr(o: Option<string>): string {
    o.GetOr("")
  }

  /** `elem.get(key, default)`: the default only when the key is absent. */
  function GetAttr(e: Element, key: string, default: string): (r: string)
    ensures key in e.attrs ==> r == e.attrs[key]
    ensures key !in e.attrs ==> r == default
  {
    if key in e.attrs then e.attrs[key] else default
  }

  /**
   * `_strip_ns` (parse_provenance.py:22-24): the text after the last `}`, or
   * the tag itself when it has none.
   */
  function StripNs(tag: string): (r: string)
    ensures '}' !in r
    ensures |r| <= |tag| && r == tag[|tag| - |r|..]
    ensures '}' in tag ==> tag[|tag| - |r| - 1] == '}'
    ensures '}' !in tag ==> r == tag
  {
    AfterLast(tag, '}')
  }

  /** Stripping the namespace twice is stripping it once. */
  lemma StripNsIdempotent(tag: string)
    ensures StripNs(StripNs(tag)) == StripNs(tag)
  {
  }

  /** Index of the first element of `cs` tagged `tag`, or `|cs|` when none is. */
  function FirstTagged(cs: seq<Element>, tag: string): (k: nat)
    ensures k <= |cs|
    ensures forall j :: 0 <= j < k ==> cs[j].tag != tag
    ensures k < |cs| ==> cs[k].tag == tag
  {
    if |cs| == 0 then 0
    else if cs[0].tag == tag then 0
    else 1 + FirstTagged(cs[1..], tag)
  }

  /** `e.find("mei:<local>", MEI_NS)`: the first direct child with that qualified tag. */
  function Find(e: Element, local: string): (r: Option<Element>)
    ensures r.None? <==> forall i :: 0 <= i < |e.children| ==> e.children[i].tag != MeiTag(local)
    ensures r.Some? ==> r.value.tag == MeiTag(local) && r.value in e.children
    ensures r.Some? ==> r.value == e.children[FirstTagged(e.children, MeiTag(local))]
  {
    var k := FirstTagged(e.children, MeiTag(local));
    if k < |e.children| then Some(e.children[k]) else None
  }

  /** The elements of `cs` tagged `tag`, in document order. */
  function Tagged(cs: seq<Element>, tag: string): (r: seq<Element>)
    ensures |r| <= |cs|
    ensures forall i :: 0 <= i < |r| ==> r[i].tag == tag && r[i] in cs
    ensures forall c :: c in cs && c.tag == tag ==> c in r
  {
    if |cs| == 0 then []
    else (if cs[0].tag == tag then [cs[0]] else []) + Tagged(cs[1..], tag)
  }

  /** Filtering a single element keeps it exactly when it carries the tag. */
  lemma TaggedSingle(c: Element, tag: string)
    ensures Tagged([c], tag) == if c.tag == tag then [c] else []
  {
    assert [c][1..] == [];
  }

  /**
   * Filtering distributes over concatenation, so with TaggedSingle the result
   * is the matching elements in document order, each as often as it occurs.
   */
  lemma {:induction false} TaggedAppend(a: seq<Element>, b: seq<Element>, tag: string)
    ensures Tagged(a + b, tag) == Tagged(a, tag) + Tagged(b, tag)
  {
    if |a| == 0 {
      assert a + b == b;
    } else {
      assert (a + b)[0] == a[0] && (a + b)[1..] == a[1..] + b;
      TaggedAppend(a[1..], b, tag);
    }
  }

  /** `e.findall("mei:<local>", MEI_NS)`: the direct children with that qualified tag. */
  function FindAll(e: Element, local: string): seq<Element> {
    Tagged(e.children, MeiTag(local))
  }

  /** The two `ValueError`s the locator raises. */
  datatype HeaderError = NotMei | MeiHeadMissing

  /**
   * The header-locating part of `parse_mei_metadata` (parse_provenance.py:68-79),
   * repeated as `_parse_mei_metadata` in parse_provenance_prov.py: an `mei`
   * root yields its first `mei:meiHead` child, a `meiHead` root is itself the
   * header, anything else is not MEI.
   */
  function LocateHeader(root: Element): (r: Result<Element, HeaderError>)
    ensures StripNs(root.tag) == "meiHead" ==> r.Success? && r.value == root
    ensures StripNs(root.tag) != "mei" && StripNs(root.tag) != "meiHead" ==> r.Failure? && r.error == NotMei
    ensures StripNs(root.tag) == "mei" ==>
      && (r.Failure? ==> r.error == MeiHeadMissing)
      && (r.Failure? <==> forall i :: 0 <= i < |root.children| ==> root.children[i].tag != MeiTag("meiHead"))
      && (r.Success? ==>
            var k := FirstTagged(root.children, MeiTag("meiHead"));
            k < |root.children| && r.value == root.children[k] && r.value.tag == MeiTag("meiHead"))
  {
    var local := StripNs(root.tag);
    if local == "mei" then
      var k := FirstTagged(root.children, MeiTag("meiHead"));
      if k < |root.children| then Success(root.children[k]) else Failure(MeiHeadMissing)
    else if local == "meiHead" then Success(root)
    else Failure(NotMei)
  }
}
